=== FILE: README.md ===
# LocalMind core, modelled in Dafny

LocalMind is a local knowledge base. A user registers folders of text and Markdown
notes. A background scan reads every supported file, has a language model summarise
it, cuts it into chunks of at most 500 characters, embeds the chunks and adds them to
a Chroma collection together with per-chunk metadata. Text can also be ingested
directly. A question is answered by embedding it, fetching the nearest chunks, and
asking the model to answer from those chunks alone.

This project models that core as pure Dafny functions over immutable values:

- `Common`, `Text`, `Json`, `Dicts`: the Python behaviour the core relies on.
  - `str.strip`, `lower`, `split`, `join`, `replace`, `str(int)`.
  - `os.path.join`, `basename`, `splitext`.
  - JSON values, their truthiness, and `json.dumps(..., ensure_ascii=False)` for the JSON values the scanner encodes.
  - Insertion-ordered dicts.
- `Schemas`: the pydantic records of `app/schemas.py`.
- `Env`: the filesystem, the language model, the embedding endpoint and the Chroma
  collection. Each appears as a function the caller supplies. A call that raises
  yields `Failure` carrying the text of the exception.
- `Llm`: `app/services/llm.py`.
  - Chunking.
  - The empty-batch shortcut of embedding.
  - Summary prompting and normalisation of the model's JSON.
  - Answer chat.
- `Scanner`: `app/services/scanner.py`.
  - File collection.
  - One attempt per file, with its exception path.
  - The counting fold over the files.
  - The whole `run_scan_folder` job lifecycle, as a trace of job states.
- `Api`: the request handlers of `main.py`.
  - Folders, scan jobs, `/ingest`, `/query`, `/api/vector-store` and `/files/raw`.
  - Each handler returns a `Response` (`Ok`, `HttpError` or `ValidationError`). Handlers that change state return the updated dict too.

On a lookup miss, `get_raw_file` calls `load_folder_configs()` and looks again
(`main.py:193-199`), so it evidently means to find configs saved by an earlier run. The
model follows what the code does instead. `load_folder_configs` rebinds the module global
of `app/services/folders.py`, while `main.py` keeps its own reference to the dict it
imported. The lookup at `main.py:196` therefore never sees the
reloaded configs. The same holds for the start-up load at `main.py:60`. `Api.GetRawFile`
models that behaviour. The "## Findings" section gives the corrected version.

## Model

| member | source | states |
|---|---|---|
| Common.FilterMember | main.py:180-184 | a list comprehension keeps exactly the elements that pass its test |
| Text.Strip | app/services/llm.py:9-11 | `strip()` is empty exactly when the text is all whitespace, and otherwise starts and ends with a non-space |
| Text.StripKeepsMiddle | app/services/llm.py:9 | `strip()` returns the text between the leading and the trailing whitespace |
| Text.StripIdempotent | app/services/llm.py:86-88 | stripping a stripped string changes nothing |
| Text.Lower | app/services/scanner.py:110 | `lower()` keeps the length and lowers each character |
| Text.ContainsIffOccurs | main.py:183 | `needle in s` holds exactly when the needle occurs at some position of `s` |
| Text.Split | app/services/llm.py:87 | `split(",")` yields one more piece than there are separators; no piece holds the separator; joining the pieces with it gives the input back |
| Text.ReplaceChar | app/services/llm.py:87 | `replace` substitutes every occurrence of one character and keeps the rest |
| Text.ParseNatToString | app/services/scanner.py:68 | the decimal text of a chunk index reads back as that index |
| Text.NatToStringInjective | main.py:127 | distinct indexes have distinct decimal texts |
| Text.SuffixedNumberInjective | app/services/scanner.py:68 | `prefix + sep + str(i)` determines both the prefix and `i` when the separator is not a digit |
| Text.JoinPath | app/services/scanner.py:115 | `os.path.join(a, b)` ends with `b` |
| Text.Basename | main.py:210 | `os.path.basename` holds no `/`, ends its argument, and is preceded there by a `/` when shorter |
| Text.BasenameOfJoin | app/services/scanner.py:115 | the base name of `join(root, fname)` is `fname` |
| Text.Extension | app/services/scanner.py:113 | `splitext(...)[1]` is empty or a dot-led suffix of the name with no further dot or `/` |
| Json.Lookup | app/services/llm.py:82-83 | `dict.get` finds a value exactly when the key is present, and the value found is stored under the key |
| Json.LookupAt | app/services/scanner.py:70-84 | a key's last occurrence in an object gives the value `get` returns, as a Python dict keeps the last duplicate |
| Json.UnescapeEscape | app/services/scanner.py:53 | decoding the JSON escape of a string gives the string back |
| Json.Dumps | app/services/scanner.py:53 | a string encodes to a quoted literal that decodes back to it; a list encodes as its items' encodings, one per item in order, joined by `, ` inside brackets (the empty list as `[]`); an object encodes one `key: value` entry per distinct key, in first-occurrence order with the last value, inside braces |
| Json.FirstOccurrencesDistinct | app/services/scanner.py:53 | an encoded object writes no key twice |
| Json.FirstOccurrencesCover | app/services/scanner.py:53 | an encoded object writes every key its items hold |
| Dicts.Put | main.py:266 | assigning a key stores the value under it, leaves every other key alone, and appends a new key at the end of the order |
| Dicts.Remove | main.py:273-274 | `del` removes the key and leaves every other key's value alone; the remaining keys keep their order, closing the gap where the key stood, and an absent key leaves the order as it was |
| Dicts.Values | main.py:177 | `values()` lists, in key order, the value stored under each key |
| Schemas.ParseStatus | app/schemas.py:55 | the status names `pending`, `running`, `completed` and `error` read back as their statuses, and no other text does |
| Schemas.NewFolderConfig | app/schemas.py:33-40 | a new config holds the given id, name, path and creation time, and its three last-scan fields default to none |
| Schemas.NewScanJob | app/schemas.py:52-60 | a new job holds the given id, folder, status and start time; both counters default to 0, and the error message and finish time to none |
| Schemas.StatusResponseLossless | main.py:306 | `ScanJobStatusResponse(**job.dict())` loses nothing: it converts back to the same job, and the two conversions are inverse |
| Llm.SlicesConcat | app/services/llm.py:14 | the slices taken every `max_chars` characters concatenate back to the text |
| Llm.SlicesLengths | app/services/llm.py:14 | every slice is non-empty and no longer than `max_chars`, and all but the last have exactly that length |
| Llm.SlicesCount | app/services/llm.py:14 | the number of slices is the text length divided by `max_chars`, rounded up |
| Llm.SliceAt | app/services/llm.py:14 | slice `k` is `text[k*max_chars : k*max_chars + max_chars]` |
| Llm.ChunkText | app/services/llm.py:8-14 | blank text gives no chunks; stripped text that fits gives itself; a zero step raises only on non-blank text; a negative step gives no chunks |
| Llm.ChunkTextSegments | app/services/llm.py:8-14 | with a positive limit, the chunks cover the stripped text in order, each non-empty and within the limit, and all but the last full |
| Llm.ChunkTextDefault | app/services/llm.py:8-14 | with the default 500, there are no chunks exactly when the text is blank |
| Llm.ChunkTextDefaultSegments | app/services/llm.py:8-14 | with the default 500, the chunks segment the stripped text |
| Llm.EmbedTexts | app/services/llm.py:17-24 | an empty batch gives no vectors without calling the endpoint; any other batch is sent as it is |
| Llm.StripNonBlankMembers | app/services/llm.py:85-89 | a keyword is kept exactly when it is the non-empty strip of some piece |
| Llm.NormalizeKeywords | app/services/llm.py:83-92 | a list is kept as it is, a string is split into keywords, anything else or nothing gives no keywords |
| Llm.SplitKeywordsMembers | app/services/llm.py:84-89 | a keyword is kept exactly when it is the non-empty strip of a piece of the text split at commas of either width |
| Llm.SplitKeywordsClean | app/services/llm.py:84-89 | every kept keyword is non-empty, already stripped, and holds no comma of either width |
| Llm.GetOr | app/services/llm.py:82-83 | a truthy stored value is returned as it is; a missing or falsy one gives the default |
| Llm.NormalizeParsed | app/services/llm.py:82-94 | non-objects raise the `'…' object has no attribute 'get'` error; a truthy summary is kept, and a missing or falsy one becomes `""`; list keywords are kept; string keywords are split; anything else gives no keywords |
| Llm.DocumentPrefix | app/services/llm.py:55-59 | the prompt text is the prefix of the stripped text of length min(4000, its length), so the whole stripped text when it fits |
| Llm.SummarizeDocument | app/services/llm.py:51-94 | blank text gives an empty summary without calling the model; undecodable output is itself the summary; decoded output is normalised |
| Llm.SummaryDependsOnPrefixOnly | app/services/llm.py:59-80 | two non-blank documents with the same first 4000 stripped characters get the same summary |
| Llm.ChatWithLlm | app/services/llm.py:27-48 | the answer is the model's reply, stripped, and fails exactly when the call does |
| Scanner.ExtensionIs | app/services/scanner.py:113 | the lowered extension equals a dot-led suffix exactly when the lowered name ends with it and some non-dot precedes it |
| Scanner.IncludedIffSuffix | app/services/scanner.py:109-115 | a file is collected exactly when it has no ignored suffix and its lowered name ends with a supported extension that is not its whole stem |
| Scanner.ExcalidrawMarkdownSkipped | app/settings.py:25-28 | `x.Excalidraw.MD` has a supported extension yet is skipped as ignored |
| Scanner.HiddenFileSkipped | app/services/scanner.py:113-114 | `.md` has no extension under `splitext`, so it is not collected |
| Scanner.UpperCaseExtensionKept | app/services/scanner.py:110-114 | `Notes.MD` is collected: the comparison ignores case |
| Scanner.CollectDirMember | app/services/scanner.py:109-115 | one directory contributes exactly its included files, joined to its root |
| Scanner.CollectFilesMember | app/services/scanner.py:106-116 | a path is collected exactly when some walked directory has an included file that joins to it |
| Scanner.ChunkIds | app/services/scanner.py:68 | chunk `i` gets id `"<doc_id>::chunk_<i>"` |
| Scanner.ChunkIdsDistinct | app/services/scanner.py:68 | the chunk ids of one file are pairwise distinct |
| Scanner.ChunkMetadatas | app/services/scanner.py:70-84 | one metadata per chunk, each carrying its own chunk index and the same folder id and name, relative path, file name, summary, encoded keywords, modification time, year and month |
| Scanner.SkippedIffBlank | app/services/scanner.py:39-44 | a file is skipped before any model call exactly when it reads as blank text |
| Scanner.IndexedBatch | app/services/scanner.py:46-91 | an indexed file adds its chunks in order, which spell its stripped text, under distinct ids `"<folder>:<rel>::chunk_<i>"`, with one metadata per chunk whose file name is the basename of the relative path and whose time fields come from the file's stat |
| Scanner.AttemptFile | app/services/scanner.py:38-91 | a read failure, a summariser failure and a stat failure each fail the file with that error, in that order; a blank file is skipped; past the stat the file's chunks, chunk ids and metadatas go to the embed-and-add stage, and an indexed file's documents are its chunks |
| Scanner.EmbedAndAdd | app/services/scanner.py:67-91 | a failing embedding call or a failing add fails the file with that error; when both succeed, the file is indexed with exactly the ids, chunks, vectors and metadatas given |
| Scanner.RecordAttempt | app/services/scanner.py:93-96 | after a file the processed count is its 1-based index; a failure overwrites the error message with `"<path>: <exc>"`; nothing else changes |
| Scanner.FoldCounts | app/services/scanner.py:37-96 | after `k` files there are `k` snapshots, the `i`-th counting `i + 1` processed files, and only the count and the message changed |
| Scanner.FoldLastError | app/services/scanner.py:93-94 | the error message is the one of the last failing file, or the initial one when none failed |
| Scanner.FoldAddedInOrder | app/services/scanner.py:86-91 | the batches added are those of the indexed files, in file order, as a front-to-back reference list of them gives |
| Scanner.FoldAdded | app/services/scanner.py:86-91 | a batch is added exactly when some file's attempt indexed it |
| Scanner.Outcomes | app/services/scanner.py:37-96 | each collected file is attempted once, in order, against the folder's base path |
| Scanner.RunScanFolder | app/services/scanner.py:13-103 | a scan keeps the store well formed |
| Scanner.JobTraceShape | app/services/scanner.py:33-102 | the job is counted, then set running, then counts files 1..n, then completes with the finish time; nothing else about it changes |
| Scanner.UnknownJobNoChange | app/services/scanner.py:15-17 | an unknown job id changes nothing |
| Scanner.EarlyExit | app/services/scanner.py:19-31 | a missing folder config or directory ends the job in `error` with its message and finish time, and touches nothing else |
| Scanner.CompletedRun | app/services/scanner.py:98-102 | a completed scan counts every collected file, finishes the job, and stamps the folder with the finish time, status and job id |
| Scanner.ProgressMonotone | app/services/scanner.py:33-37 | the processed count climbs 1, 2, … up to the total, which stays fixed |
| Scanner.JobTraceSteps | app/services/scanner.py:33-98 | a pending job goes through `running` to `completed` and never back |
| Scanner.StatusTransitions | app/services/scanner.py:13-102 | every status change of a pending job is a legal step, ending in `error` or `completed` |
| Scanner.CompletedLastError | app/services/scanner.py:93-98 | a completed job keeps the last failing file's message, or its old one when no file failed |
| Scanner.CompletedAdded | app/services/scanner.py:37-91 | a completed scan adds exactly the batches of the collected files that were indexed, in the order the files were collected |
| Api.ListFolders | main.py:175-185 | without a query every config is listed in insertion order |
| Api.ListFoldersMember | main.py:178-184 | with a query, a config is listed exactly when its name or path mentions the query, ignoring case |
| Api.CreateFolder | main.py:253-268 | creating a folder keeps the dict well formed |
| Api.CreateFolderEffect | main.py:254-268 | a non-directory is refused with 400 and no change; otherwise a new config with the absolute path is added under the fresh id and nothing else changes |
| Api.DeleteFolderEffect | main.py:271-277 | deleting removes exactly the given id, or answers 404 and changes nothing |
| Api.StartScanEffect | main.py:280-298 | an unknown folder answers 404 and creates no job; otherwise exactly one pending job with zero counters is added |
| Api.GetScanJob | main.py:301-306 | a stored job is answered with a response that converts back to it; an unknown id answers 404 |
| Api.ListScanJobsMember | main.py:309-314 | without a folder id every job is listed in order; with one, a job is listed exactly when it belongs to that folder |
| Api.IngestIdsDistinct | main.py:127 | the ids of one ingest are distinct, and the number after `<doc_id>_` is the chunk index |
| Api.IngestMetadataLookups | main.py:128-131 | each ingest record carries the document id, its own chunk index and the title |
| Api.IngestTitle | main.py:122 | a given title is kept; otherwise the title is `Doc-` followed by the first eight characters of the document id |
| Api.IngestText | main.py:116-140 | blank text answers 400 and adds nothing; an embedding or add failure answers 500 and adds nothing; when both succeed the numbered batch is added and the answer names the document and counts its chunks |
| Api.IngestTextSuccess | main.py:121-140 | a successful ingest adds one record per chunk, spelling the stripped text, under distinct numbered ids, and answers with the document id and the chunk count |
| Api.ContextChunks | main.py:167-170 | one context chunk per document in order, with the metadata at the same position or none when the list ran short |
| Api.QueryKnowledge | main.py:143-146 | a blank question answers 400 |
| Api.QueryKnowledgeFound | main.py:148-172 | no documents gives the fixed answer without asking the model; otherwise the model answers from the joined documents, and every document comes back as context |
| Api.VectorItemsPadding | main.py:229-243 | every id becomes an item, with the document at its position or `""`, and the metadata at its position or none |
| Api.VectorItemsPrefix | main.py:234-243 | later entries of the lists never change an earlier item |
| Api.ListVectorStore | main.py:214-250 | a limit outside 1..200 or a negative offset is refused naming each bad parameter; a page echoes its limit, offset and the store's count |
| Api.ListVectorStoreResult | main.py:219-243 | a failing count or get answers 500 with the exception text; otherwise one item per returned id |
| Api.ServeTarget | main.py:204-211 | a file is served exactly when the containment test accepts it and it exists, under its base name |
| Api.GetRawFile | main.py:188-211 | an unknown folder answers 404; for a known folder, a resolved target that does not start with the folder's resolved path answers 400, one that does but is missing answers 404, and one that does and exists is served under its base name |
| Api.FindFolder | main.py:193-199 | the intended lookup finds a config in the live dict, or else in the persisted configs |
| Api.GetRawFileIntended | main.py:188-211 | the intended route answers 404 for the folder exactly when neither dict holds it; for a found folder, a target outside its directory answers 400, a missing one inside answers 404, and an existing one inside is served under its base name |
| Api.IntendedServesInside | main.py:201-205 | the intended route serves only paths inside the folder's resolved directory, at a path-component boundary |
| Api.WithinDirOfChild | main.py:204 | everything inside the resolved directory passes the intended containment test |
| Api.SiblingDirectoryServed | main.py:204-211 | the prefix test serves `/srv/notes2/secret.txt` for a folder at `/srv/notes` |
| Api.SiblingDirectoryRefused | main.py:204-205 | the intended test refuses that sibling with 400 |
| Api.ReloadedFolderNotFound | main.py:193-199 | a folder only the configuration file holds answers 404 as written, and is served by the intended route |

## Left out

- Persistence: `load_folder_configs` and `save_folder_configs` (JSON file I/O) are not modelled. The persisted configs appear only as the `reloaded` argument of `Api.GetRawFileIntended`. The program saves the configs after a create or delete (`main.py:266-267`, `main.py:275`) and after a scan; the model does not track that file.
- Concurrency: `scan_lock`, FastAPI's background tasks and simultaneous requests are not modelled. A scan runs as one step once `Api.StartScan` has stored its job.
- The static pages, `/`, `/chat`, `/admin`, `/vectors`, `/api/status`, the CORS middleware and the static mounts: they hold no logic of the core.
- The prompt texts, the model names and the temperatures: the language model is an opaque function of the document prefix or the question and context.
- `uuid.uuid4()`, `datetime.utcnow()`, `os.stat` times and every filesystem answer are parameters.
- `app/clients.py` is not part of this model. The embedding, chat and Chroma clients are the `Services` functions.
- Text.Lower: lowers ASCII letters only, where Python's `lower()` covers all of Unicode.
- Json.Dumps: floats are written from a given text rather than Python's shortest round-trip repr.
- Json.UnescapeEscape: the decoder refuses `\u` escapes in the surrogate range, which `json.loads` accepts; the encoder never writes them.
- Scanner.AttemptFile: the `None` and `str()` branches for keywords are left out. `summarize_document` always returns a list there, so only the `json.dumps` branch is reachable.
- Scanner.AttemptFile: a `collection.add` that raises counts as nothing added. Chroma's partial writes are not modelled.
- Scanner.IndexedBatch: the embeddings are whatever the endpoint returned. The model does not require one vector per chunk, because the source does not check it either; a mismatch raises inside `collection.add`.
- Schemas.ScanJob: `status` is an enumeration of the four values named in the comment at `app/schemas.py:55`, where the source field is any string. The code only ever writes those four.
- Api.QueryKnowledge: every failure that FastAPI turns into a 500 answers `Internal Server Error`, whatever the exception text.
- Request defaults: the query-parameter defaults of `/api/vector-store` (`limit` 20, `offset` 0) and `QueryRequest.top_k` (5) belong to FastAPI and pydantic parsing; the model takes every parameter explicitly.

## Findings

| source | as written | input that shows it | evidently intended | confidence | as-written member | corrected member |
|---|---|---|---|---|---|---|
| main.py:204 | `target.startswith(base)` is a plain string-prefix test | folder `/srv/notes`, `path=../notes2/secret.txt`, which resolves to `/srv/notes2/secret.txt` | serve only files inside the folder's directory, at a path-component boundary | not executed | Api.SiblingDirectoryServed | Api.IntendedServesInside |
| main.py:193-199 | the reload rebinds the global of `app/services/folders.py`; `main.py` still reads the dict it imported | an empty live dict, with the id present in the configuration file | a lookup miss finds configs saved by an earlier run | not executed | Api.ReloadedFolderNotFound | Api.GetRawFileIntended |

=== FILE: api.dfy ===
/** The request handlers of `main.py`, as pure operations on the folder and job
    dicts. A handler that raises `HTTPException` answers `HttpError`; a request that
    fails FastAPI's query validation answers `ValidationError`; an exception nothing
    catches becomes FastAPI's plain 500 answer. */
module Api {
  import opened Common
  import opened Text
  import opened Json
  import opened Schemas
  import opened Env
  import opened Dicts
  import opened Llm

  datatype Response<+T> =
    | Ok(value: T)
    | HttpError(status: int, detail: string)
    | ValidationError(params: seq<string>)

  /** The body FastAPI sends for an exception no handler caught. */
  const InternalError: string := "Internal Server Error"

  /** A handler's answer together with the dict it leaves behind. */
  datatype Handled<S, T> = Handled(state: S, response: Response<T>)

  // ---------------------------------------------------------------------------
  // Folders
  // ---------------------------------------------------------------------------

  /** The folder search test: the lowered query occurs in the lowered name or in the
      lowered path. */
  predicate MatchesQuery(cfg: FolderConfig, qLower: string)
  {
    Contains(Lower(cfg.name), qLower) || Contains(Lower(cfg.path), qLower)
  }

  /** `list_folders(q)`: every config in insertion order, narrowed to those whose
      name or path holds `q` ignoring case when `q` is given and not empty. */
  function ListFolders(folders: Dict<FolderConfig>, q: Option<string>): (r: FolderListResponse)
    requires Valid(folders)
    ensures q.None? || q.value == [] ==> r.items == Values(folders)
    ensures |r.items| <= |folders.keys|
  {
    var items := Values(folders);
    if q.None? || q.value == [] then FolderListResponse(items)
    else
      var qLower := Lower(q.value);
      FolderListResponse(Filter(items, cfg => MatchesQuery(cfg, qLower)))
  }

  /** Reference meaning of the filter: `q`, lower-cased, occurs somewhere in the
      lower-cased name or path. */
  ghost predicate MentionsQuery(cfg: FolderConfig, q: string)
  {
    (exists i :: OccursAt(Lower(cfg.name), Lower(q), i)) || (exists i :: OccursAt(Lower(cfg.path), Lower(q), i))
  }

  /** With a non-empty `q`, a config is listed exactly when it is registered and
      its name or path mentions `q`, ignoring case. */
  lemma ListFoldersMember(folders: Dict<FolderConfig>, q: string, cfg: FolderConfig)
    requires Valid(folders) && q != []
    ensures cfg in ListFolders(folders, Some(q)).items <==> cfg in Values(folders) && MentionsQuery(cfg, q)
  {
    var qLower := Lower(q);
    FilterMember(Values(folders), c => MatchesQuery(c, qLower), cfg);
    ContainsIffOccurs(Lower(cfg.name), qLower);
    ContainsIffOccurs(Lower(cfg.path), qLower);
  }

  /** `create_folder(req)`: a path that is not a directory once made absolute is
      refused with 400; otherwise a config with the absolute path and no scan yet is
      stored under the fresh id and returned. */
  function CreateFolder(folders: Dict<FolderConfig>, req: FolderCreateRequest, fs: FileSystem,
                        freshId: string, now: Instant): (r: Handled<Dict<FolderConfig>, FolderConfig>)
    requires Valid(folders)
    ensures Valid(r.state)
  {
    var path := fs.absPath(req.path);
    if !fs.isDir(path) then Handled(folders, HttpError(400, "path 不是有效的文件夹"))
    else
      var cfg := NewFolderConfig(freshId, req.name, path, now);
      Handled(Put(folders, freshId, cfg), Ok(cfg))
  }

  /** Creating a folder either changes nothing and answers 400, or adds exactly one
      entry, under the fresh id, and returns it; every other id keeps its config. */
  lemma CreateFolderEffect(folders: Dict<FolderConfig>, req: FolderCreateRequest, fs: FileSystem,
                           freshId: string, now: Instant)
    requires Valid(folders)
    ensures var r := CreateFolder(folders, req, fs, freshId, now);
      && (r.response.HttpError? <==> !fs.isDir(fs.absPath(req.path)))
      && (r.response.HttpError? ==> r.state == folders && r.response.status == 400)
      && (r.response.Ok? ==>
            && r.response.value.id == freshId
            && r.response.value.name == req.name
            && r.response.value.path == fs.absPath(req.path)
            && r.response.value.lastScanAt.None?
            && r.response.value.lastScanStatus.None?
            && r.response.value.lastScanJobId.None?
            && Get(r.state, freshId) == Some(r.response.value)
            && (forall id :: id != freshId ==> Get(r.state, id) == Get(folders, id))
            && (freshId !in folders.entries ==> r.state.keys == folders.keys + [freshId]))
  {
  }

  /** `delete_folder(folder_id)` */
  function DeleteFolder(folders: Dict<FolderConfig>, folderId: string): (r: Handled<Dict<FolderConfig>, bool>)
    requires Valid(folders)
    ensures Valid(r.state)
  {
    if folderId in folders.entries then Handled(Remove(folders, folderId), Ok(true))
    else Handled(folders, HttpError(404, "未找到该文件夹配置"))
  }

  /** Deleting removes the given id and nothing else; an unknown id answers 404 and
      changes nothing. */
  lemma DeleteFolderEffect(folders: Dict<FolderConfig>, folderId: string)
    requires Valid(folders)
    ensures var r := DeleteFolder(folders, folderId);
      && (r.response.Ok? <==> Get(folders, folderId).Some?)
      && Get(r.state, folderId).None?
      && (forall id :: id != folderId ==> Get(r.state, id) == Get(folders, id))
      && (r.response.HttpError? ==> r.state == folders && r.response.status == 404)
      && (r.response.Ok? ==> |r.state.keys| == |folders.keys| - 1)
  {
  }

  // ---------------------------------------------------------------------------
  // Scan jobs
  // ---------------------------------------------------------------------------

  /** `start_scan(folder_id)`: an unknown folder answers 404; otherwise a `pending`
      job with both counters at 0 is stored under the fresh id and returned. Running
      it is `Scanner.RunScanFolder`. */
  function StartScan(folders: Dict<FolderConfig>, jobs: Dict<ScanJob>, folderId: string,
                     freshId: string, now: Instant): (r: Handled<Dict<ScanJob>, ScanJob>)
    requires Valid(jobs)
    ensures Valid(r.state)
  {
    if Get(folders, folderId).None? then Handled(jobs, HttpError(404, "未找到该文件夹配置"))
    else
      var job := NewScanJob(freshId, folderId, Pending, now);
      Handled(Put(jobs, freshId, job), Ok(job))
  }

  /** Starting a scan creates no job for an unknown folder, and otherwise adds exactly
      the new pending job under its own id, leaving every other job alone. */
  lemma StartScanEffect(folders: Dict<FolderConfig>, jobs: Dict<ScanJob>, folderId: string,
                        freshId: string, now: Instant)
    requires Valid(jobs)
    ensures var r := StartScan(folders, jobs, folderId, freshId, now);
      && (r.response.Ok? <==> Get(folders, folderId).Some?)
      && (r.response.HttpError? ==> r.state == jobs && r.response.status == 404)
      && (r.response.Ok? ==>
            && r.response.value.id == freshId
            && r.response.value.folderId == folderId
            && r.response.value.status == Pending
            && r.response.value.totalFiles == 0
            && r.response.value.processedFiles == 0
            && r.response.value.errorMessage.None?
            && r.response.value.finishedAt.None?
            && Get(r.state, freshId) == Some(r.response.value)
            && (forall id :: id != freshId ==> Get(r.state, id) == Get(jobs, id)))
  {
  }

  /** `get_scan_job(job_id)` */
  function GetScanJob(jobs: Dict<ScanJob>, jobId: string): (r: Response<ScanJobStatusResponse>)
    ensures r.Ok? <==> Get(jobs, jobId).Some?
    ensures r.Ok? ==> FromStatusResponse(r.value) == Get(jobs, jobId).value
    ensures r.HttpError? ==> r.status == 404
  {
    match Get(jobs, jobId)
    case None => HttpError(404, "未找到扫描任务")
    case Some(job) => Ok(ToStatusResponse(job))
  }

  /** `list_scan_jobs(folder_id)`: every job, narrowed to one folder when a
      non-empty folder id is given, each as a status response. */
  function ListScanJobs(jobs: Dict<ScanJob>, folderId: Option<string>): (r: seq<ScanJobStatusResponse>)
    requires Valid(jobs)
    ensures |r| <= |jobs.keys|
  {
    var all := Values(jobs);
    var picked := if folderId.None? || folderId.value == [] then all
                  else Filter(all, (job: ScanJob) => job.folderId == folderId.value);
    seq(|picked|, i requires 0 <= i < |picked| => ToStatusResponse(picked[i]))
  }

  /** Without a folder id every job is listed in order; with one, a job is listed
      exactly when it is stored and belongs to that folder. */
  lemma ListScanJobsMember(jobs: Dict<ScanJob>, folderId: Option<string>, job: ScanJob)
    requires Valid(jobs)
    ensures folderId.None? || folderId.value == [] ==>
      |ListScanJobs(jobs, folderId)| == |jobs.keys| &&
      forall i :: 0 <= i < |jobs.keys| ==> Get(jobs, jobs.keys[i]) == Some(FromStatusResponse(ListScanJobs(jobs, folderId)[i]))
    ensures folderId.Some? && folderId.value != [] ==>
      (ToStatusResponse(job) in ListScanJobs(jobs, folderId) <==> job in Values(jobs) && job.folderId == folderId.value)
  {
    if folderId.Some? && folderId.value != [] {
      var keep := (j: ScanJob) => j.folderId == folderId.value;
      var picked := Filter(Values(jobs), keep);
      FilterMember(Values(jobs), keep, job);
      var r := ListScanJobs(jobs, folderId);
      if ToStatusResponse(job) in r {
        var i :| 0 <= i < |r| && r[i] == ToStatusResponse(job);
        StatusResponseLossless(picked[i], r[i]);
        StatusResponseLossless(job, r[i]);
        assert picked[i] == job;
      }
      if job in picked {
        var i :| 0 <= i < |picked| && picked[i] == job;
        assert r[i] == ToStatusResponse(job);
      }
    } else {
      var r := ListScanJobs(jobs, folderId);
      forall i | 0 <= i < |jobs.keys|
        ensures Get(jobs, jobs.keys[i]) == Some(FromStatusResponse(r[i]))
      {
        StatusResponseLossless(Values(jobs)[i], r[i]);
      }
    }
  }

  // ---------------------------------------------------------------------------
  // /ingest
  // ---------------------------------------------------------------------------

  /** The ids of an ingested document's chunks: the document id, an underscore and
      the chunk's index. */
  function IngestIds(docId: string, n: nat): (r: seq<string>)
    ensures |r| == n
  {
    seq(n, i requires 0 <= i < n => docId + "_" + NatToString(i))
  }

  /** The ids of one ingest are pairwise distinct, and id `i` names chunk `i`: the
      number after the last `_` is the chunk index. */
  lemma IngestIdsDistinct(docId: string, n: nat)
    ensures Distinct(IngestIds(docId, n))
    ensures forall i :: 0 <= i < n ==>
      var id := IngestIds(docId, n)[i];
      StartsWith(id, docId + "_") && ParseNat(id[|docId| + 1..]) == i
  {
    var r := IngestIds(docId, n);
    forall i, j | 0 <= i < j < n
      ensures r[i] != r[j]
    {
      assert r[i] == docId + ['_'] + NatToString(i);
      assert r[j] == docId + ['_'] + NatToString(j);
      if r[i] == r[j] {
        SuffixedNumberInjective(docId, i, docId, j, '_');
      }
    }
    forall i | 0 <= i < n
      ensures StartsWith(r[i], docId + "_") && ParseNat(r[i][|docId| + 1..]) == i
    {
      assert r[i][|docId| + 1..] == NatToString(i);
      ParseNatToString(i);
    }
  }

  /** The metadata of an ingested chunk: its document id, its index and the title. */
  function IngestMetadata(docId: string, title: string, i: nat): Metadata
  {
    [("doc_id", JString(docId)), ("chunk_index", JInt(i)), ("title", JString(title))]
  }

  /** Reading an ingest record's metadata back gives the document id, the chunk's
      own index and the title. */
  lemma IngestMetadataLookups(docId: string, title: string, i: nat)
    ensures Lookup(IngestMetadata(docId, title, i), "doc_id") == Some(JString(docId))
    ensures Lookup(IngestMetadata(docId, title, i), "chunk_index") == Some(JInt(i))
    ensures Lookup(IngestMetadata(docId, title, i), "title") == Some(JString(title))
  {
    var m := IngestMetadata(docId, title, i);
    LookupAt(m, "doc_id", 0);
    LookupAt(m, "chunk_index", 1);
  }

  /** The document id: the requested one when it is non-empty, else a fresh uuid. */
  function IngestDocId(req: IngestRequest, freshId: string): string
  {
    if req.docId.Some? && req.docId.value != [] then req.docId.value else freshId
  }

  /** The title: the requested one when it is non-empty, else "Doc-" followed by at
      most the first eight characters of the document id. */
  function IngestTitle(req: IngestRequest, docId: string): (r: string)
    ensures req.title.Some? && req.title.value != [] ==> r == req.title.value
    ensures req.title.None? || req.title.value == [] ==>
      StartsWith(r, "Doc-") && StartsWith(docId, r[4..]) && |r| == 4 + Min(8, |docId|)
  {
    if req.title.Some? && req.title.value != [] then req.title.value
    else "Doc-" + docId[..Min(8, |docId|)]
  }

  /** The records an ingest adds: one per chunk, under the numbered ids, with the
      chunk's metadata. */
  function IngestBatch(docId: string, title: string, chunks: seq<string>, vectors: seq<Vector>): (b: Batch)
    ensures b.documents == chunks && b.embeddings == vectors
    ensures b.ids == IngestIds(docId, |chunks|)
    ensures |b.metadatas| == |chunks|
    ensures forall i :: 0 <= i < |chunks| ==> b.metadatas[i] == IngestMetadata(docId, title, i)
  {
    Batch(IngestIds(docId, |chunks|), chunks, vectors,
          seq(|chunks|, i requires 0 <= i < |chunks| => IngestMetadata(docId, title, i)))
  }

  /** What `ingest_text` sends to `collection.add`, if it gets that far, and what it
      answers. */
  datatype IngestRun = IngestRun(added: Option<Batch>, response: Response<IngestResponse>)

  /** `ingest_text(req)`: blank text answers 400; otherwise the text is chunked,
      embedded and added under ids `"<doc_id>_<i>"`, and the answer names the
      document and counts its chunks. A failing embedding or add call raises. */
  function IngestText(req: IngestRequest, freshId: string, svc: Services): (r: IngestRun)
    ensures AllSpace(req.text) <==> r.response == HttpError(400, "text 不能为空")
    ensures r.response.Ok? <==> r.added.Some?
    ensures !AllSpace(req.text) ==>
      var chunks := ChunkTextDefault(req.text);
      var docId := IngestDocId(req, freshId);
      && (EmbedTexts(chunks, svc).Failure? ==> r == IngestRun(None, HttpError(500, InternalError)))
      && (EmbedTexts(chunks, svc).Success? ==>
            var b := IngestBatch(docId, IngestTitle(req, docId), chunks, EmbedTexts(chunks, svc).value);
            && (svc.add(b).Some? ==> r == IngestRun(None, HttpError(500, InternalError)))
            && (svc.add(b).None? ==> r == IngestRun(Some(b), Ok(IngestResponse(docId, |chunks|)))))
  {
    if Strip(req.text) == [] then IngestRun(None, HttpError(400, "text 不能为空"))
    else
      var docId := IngestDocId(req, freshId);
      var title := IngestTitle(req, docId);
      var chunks := ChunkTextDefault(req.text);
      match EmbedTexts(chunks, svc)
      case Failure(_) => IngestRun(None, HttpError(500, InternalError))
      case Success(vectors) =>
        var batch := IngestBatch(docId, title, chunks, vectors);
        match svc.add(batch)
        case Some(_) => IngestRun(None, HttpError(500, InternalError))
        case None => IngestRun(Some(batch), Ok(IngestResponse(docId, |chunks|)))
  }

  /** A successful ingest adds one record per chunk of the text, which together
      spell the stripped text, under distinct ids numbered by chunk index, each
      carrying its index and the title; the answer counts those chunks and names the
      requested document id when one was given. */
  lemma IngestTextSuccess(req: IngestRequest, freshId: string, svc: Services)
    requires IngestText(req, freshId, svc).response.Ok?
    ensures var r := IngestText(req, freshId, svc);
      var b := r.added.value;
      var docId := r.response.value.docId;
      && (req.docId.Some? && req.docId.value != [] ==> docId == req.docId.value)
      && (req.docId.None? || req.docId.value == [] ==> docId == freshId)
      && r.response.value.chunks == |b.documents| == |b.ids| == |b.metadatas| > 0
      && Concat(b.documents) == Strip(req.text)
      && Distinct(b.ids)
      && (forall i :: 0 <= i < |b.ids| ==> b.ids[i] == docId + "_" + NatToString(i))
      && (forall i :: 0 <= i < |b.metadatas| ==>
            && Lookup(b.metadatas[i], "chunk_index") == Some(JInt(i))
            && Lookup(b.metadatas[i], "title") == Some(JString(IngestTitle(req, docId))))
  {
    var docId := IngestDocId(req, freshId);
    var title := IngestTitle(req, docId);
    var chunks := ChunkTextDefault(req.text);
    assert !AllSpace(req.text) && EmbedTexts(chunks, svc).Success?;
    var b := IngestBatch(docId, title, chunks, EmbedTexts(chunks, svc).value);
    assert IngestText(req, freshId, svc) == IngestRun(Some(b), Ok(IngestResponse(docId, |chunks|)));
    ChunkTextDefaultSegments(req.text);
    IngestIdsDistinct(docId, |chunks|);
    forall i | 0 <= i < |chunks|
      ensures Lookup(IngestMetadata(docId, IngestTitle(req, docId), i), "chunk_index") == Some(JInt(i))
      ensures Lookup(IngestMetadata(docId, IngestTitle(req, docId), i), "title") == Some(JString(IngestTitle(req, docId)))
    {
      IngestMetadataLookups(docId, IngestTitle(req, docId), i);
    }
  }

  // ---------------------------------------------------------------------------
  // /query
  // ---------------------------------------------------------------------------

  /** The answer when the collection returns no document. */
  const NoContentAnswer: string := "知识库中没有相关内容，请先导入文档。"

  /** What joins the retrieved documents into one context. */
  const ContextSeparator: string := "\n\n---\n\n"

  /** The first inner list of a query result, or `[]` when the outer list is missing
      or empty. */
  function FirstList<T>(value: Option<seq<seq<T>>>): seq<T>
  {
    if value.None? || value.value == [] then [] else value.value[0]
  }

  /** One context chunk per document, carrying the metadata at the same position,
      or none where the metadata list ran short. */
  function ContextChunks(docs: seq<string>, metas: seq<Option<Metadata>>): (r: seq<ContextChunk>)
    ensures |r| == |docs|
    ensures forall i :: 0 <= i < |docs| ==> r[i].text == docs[i]
    ensures forall i :: 0 <= i < |docs| ==> (r[i].metadata == None <==> i >= |metas| || metas[i] == None)
    ensures forall i :: 0 <= i < |docs| && i < |metas| ==> r[i].metadata == metas[i]
  {
    seq(|docs|, i requires 0 <= i < |docs| => ContextChunk(docs[i], At(metas, i, None)))
  }

  /** Lines 158-172 of `query_knowledge`: answer from the retrieved documents and
      their metadatas. */
  function AnswerFrom(question: string, docs: seq<string>, metas: seq<Option<Metadata>>, svc: Services): (r: Response<QueryResponse>)
    ensures docs == [] ==> r == Ok(QueryResponse(NoContentAnswer, []))
    ensures r.HttpError? ==> r.status == 500
    ensures docs != [] ==> (r.Ok? <==> svc.chat(question, Join(docs, ContextSeparator)).Success?)
    ensures docs != [] && r.Ok? ==>
      && r.value.answer == Strip(svc.chat(question, Join(docs, ContextSeparator)).value)
      && |r.value.contextChunks| == |docs|
      && (forall i :: 0 <= i < |docs| ==> r.value.contextChunks[i].text == docs[i])
  {
    if docs == [] then Ok(QueryResponse(NoContentAnswer, []))
    else
      match ChatWithLlm(question, Join(docs, ContextSeparator), svc)
      case Failure(_) => HttpError(500, InternalError)
      case Success(answer) => Ok(QueryResponse(answer, ContextChunks(docs, metas)))
  }

  /** `query_knowledge(req)`: a blank question answers 400; otherwise the question is
      embedded, the collection queried with its vector, and the answer drawn from the
      first list of documents and metadatas it returns. */
  function QueryKnowledge(req: QueryRequest, svc: Services): (r: Response<QueryResponse>)
    ensures AllSpace(req.question) <==> r == HttpError(400, "question 不能为空")
  {
    if Strip(req.question) == [] then HttpError(400, "question 不能为空")
    else Retrieve(req, svc)
  }

  /** Lines 148-156 of `query_knowledge`: embed the question, query the collection
      and answer from what it returns; any exception answers 500. */
  function Retrieve(req: QueryRequest, svc: Services): (r: Response<QueryResponse>)
    ensures r.HttpError? ==> r.status == 500
  {
    match EmbedTexts([req.question], svc)
    case Failure(_) => HttpError(500, InternalError)
    case Success(vectors) =>
      if vectors == [] then HttpError(500, InternalError)
      else
        match svc.query(vectors[0], req.topK)
        case Failure(_) => HttpError(500, InternalError)
        case Success(result) =>
          AnswerFrom(req.question, FirstList(result.documents), FirstList(result.metadatas), svc)
  }

  /** When the query finds documents, the model is asked about exactly those
      documents joined by the separator, and every document comes back as a context
      chunk in order; when it finds none, the fixed answer comes back with no
      context. */
  lemma QueryKnowledgeFound(req: QueryRequest, svc: Services, v: Vector, result: QueryResult)
    requires !AllSpace(req.question)
    requires svc.embed([req.question]).Success? && |svc.embed([req.question]).value| > 0
    requires v == svc.embed([req.question]).value[0] && svc.query(v, req.topK) == Success(result)
    ensures FirstList(result.documents) == [] ==> QueryKnowledge(req, svc) == Ok(QueryResponse(NoContentAnswer, []))
    ensures FirstList(result.documents) != [] ==>
      var docs := FirstList(result.documents);
      var chat := svc.chat(req.question, Join(docs, ContextSeparator));
      && (QueryKnowledge(req, svc).Ok? <==> chat.Success?)
      && (chat.Success? ==>
            && QueryKnowledge(req, svc).value.answer == Strip(chat.value)
            && |QueryKnowledge(req, svc).value.contextChunks| == |docs|
            && forall i :: 0 <= i < |docs| ==> QueryKnowledge(req, svc).value.contextChunks[i].text == docs[i])
  {
    assert EmbedTexts([req.question], svc) == svc.embed([req.question]);
    assert Retrieve(req, svc) == AnswerFrom(req.question, FirstList(result.documents), FirstList(result.metadatas), svc);
  }

  // ---------------------------------------------------------------------------
  // /api/vector-store
  // ---------------------------------------------------------------------------

  /** A list the store may leave out, with a missing or empty one read as `[]`. */
  function OrEmpty<T>(value: Option<seq<T>>): seq<T>
  {
    if value.None? then [] else value.value
  }

  /** One item per id, in order, with the document at the same position (`""` when
      missing or `None`) and the metadata at the same position (`None` when
      missing). */
  function VectorItems(ids: seq<string>, docs: seq<Option<string>>, metas: seq<Option<Metadata>>): (r: seq<VectorItem>)
    ensures |r| == |ids|
  {
    seq(|ids|, i requires 0 <= i < |ids| =>
      var document := At(docs, i, None);
      VectorItem(ids[i], if document.Some? then document.value else "", At(metas, i, None)))
  }

  /** The padding rule, item by item: the ids come through in order; an item has a
      document exactly when a non-empty one stands at its position; its metadata is
      the one at its position, if any. */
  lemma VectorItemsPadding(ids: seq<string>, docs: seq<Option<string>>, metas: seq<Option<Metadata>>, i: nat)
    requires i < |ids|
    ensures var item := VectorItems(ids, docs, metas)[i];
      && item.id == ids[i]
      && (item.document != [] <==> i < |docs| && docs[i].Some? && docs[i].value != [])
      && (i < |docs| && docs[i].Some? ==> item.document == docs[i].value)
      && (item.metadata.Some? <==> i < |metas| && metas[i].Some?)
      && (i < |metas| ==> item.metadata == metas[i])
  {
  }

  /** The prefix of the returned items depends only on the prefixes of the three
      lists: what comes later in them never changes an earlier item. */
  lemma VectorItemsPrefix(ids: seq<string>, docs: seq<Option<string>>, metas: seq<Option<Metadata>>, k: nat)
    requires k <= |ids|
    ensures VectorItems(ids, docs, metas)[..k] ==
      VectorItems(ids[..k], docs[..Min(k, |docs|)], metas[..Min(k, |metas|)])
  {
    var a := VectorItems(ids, docs, metas)[..k];
    var b := VectorItems(ids[..k], docs[..Min(k, |docs|)], metas[..Min(k, |metas|)]);
    forall i | 0 <= i < k
      ensures a[i] == b[i]
    {
      VectorItemsPadding(ids, docs, metas, i);
      VectorItemsPadding(ids[..k], docs[..Min(k, |docs|)], metas[..Min(k, |metas|)], i);
    }
  }

  /** `list_vector_store(limit, offset)`: `limit` must lie in 1..200 and `offset`
      be non-negative, or FastAPI refuses the request; a failing count or get answers
      500 with the exception's text; otherwise the page is listed. */
  function ListVectorStore(limit: int, offset: int, svc: Services): (r: Response<VectorListResponse>)
    ensures r.ValidationError? <==> !(1 <= limit <= 200) || offset < 0
    ensures r.ValidationError? ==> ("limit" in r.params <==> !(1 <= limit <= 200)) && ("offset" in r.params <==> offset < 0)
    ensures r.Ok? ==> svc.count.Success? && r.value.limit == limit && r.value.offset == offset && r.value.total == svc.count.value
  {
    var invalid := (if 1 <= limit <= 200 then [] else ["limit"]) + (if offset >= 0 then [] else ["offset"]);
    if invalid != [] then ValidationError(invalid)
    else
      match svc.count
      case Failure(e) => HttpError(500, "查询向量库失败: " + e)
      case Success(total) =>
        match svc.get(limit, offset)
        case Failure(e) => HttpError(500, "查询向量库失败: " + e)
        case Success(data) =>
          Ok(VectorListResponse(VectorItems(OrEmpty(data.ids), OrEmpty(data.documents), OrEmpty(data.metadatas)),
                                total, limit, offset))
  }

  /** With valid parameters, a failing store call answers 500 naming the exception,
      and otherwise the items are the padded page the store returned. */
  lemma ListVectorStoreResult(limit: int, offset: int, svc: Services)
    requires 1 <= limit <= 200 && offset >= 0
    ensures svc.count.Failure? ==> ListVectorStore(limit, offset, svc) == HttpError(500, "查询向量库失败: " + svc.count.error)
    ensures svc.count.Success? && svc.get(limit, offset).Failure? ==>
      ListVectorStore(limit, offset, svc) == HttpError(500, "查询向量库失败: " + svc.get(limit, offset).error)
    ensures svc.count.Success? && svc.get(limit, offset).Success? ==>
      var data := svc.get(limit, offset).value;
      ListVectorStore(limit, offset, svc).Ok? &&
      |ListVectorStore(limit, offset, svc).value.items| == |OrEmpty(data.ids)| &&
      forall i :: 0 <= i < |OrEmpty(data.ids)| ==>
        ListVectorStore(limit, offset, svc).value.items[i].id == OrEmpty(data.ids)[i]
  {
  }

  // ---------------------------------------------------------------------------
  // /files/raw
  // ---------------------------------------------------------------------------

  /** A `FileResponse`: the file to send and the name to send it under. */
  datatype FileServe = FileServe(path: string, filename: string)

  /** The common tail of the route once the folder is known: refuse a target the
      containment test rejects, answer 404 for one that does not exist, and serve
      the rest under their base name. */
  function ServeTarget(target: string, accepted: bool, fs: FileSystem): (r: Response<FileServe>)
    ensures r.Ok? <==> accepted && fs.pathExists(target)
    ensures r.Ok? ==> r.value == FileServe(target, Basename(target))
  {
    if !accepted then HttpError(400, "非法路径")
    else if !fs.pathExists(target) then HttpError(404, "文件不存在")
    else Ok(FileServe(target, Basename(target)))
  }

  /** `get_raw_file(folder_id, path)` as written. The reload at line 195 rebinds the
      dict of `app/services/folders.py`, while this module keeps its own reference
      to the dict it imported, so the second lookup sees the same dict as the first:
      only `folders` is consulted. The containment test is a plain string prefix. */
  function GetRawFile(folders: Dict<FolderConfig>, folderId: string, path: string, fs: FileSystem): (r: Response<FileServe>)
    ensures Get(folders, folderId).None? ==> r == HttpError(404, "未找到对应的文件夹配置")
    ensures r.Ok? ==>
      var folder := Get(folders, folderId).value;
      StartsWith(r.value.path, fs.realPath(folder.path)) && r.value.path == fs.realPath(JoinPath(folder.path, path))
    ensures Get(folders, folderId).Some? ==>
      var folder := Get(folders, folderId).value;
      var base := fs.realPath(folder.path);
      var target := fs.realPath(JoinPath(folder.path, path));
      && (!StartsWith(target, base) ==> r == HttpError(400, "非法路径"))
      && (StartsWith(target, base) && !fs.pathExists(target) ==> r == HttpError(404, "文件不存在"))
      && (StartsWith(target, base) && fs.pathExists(target) ==> r == Ok(FileServe(target, Basename(target))))
  {
    match Get(folders, folderId)
    case None => HttpError(404, "未找到对应的文件夹配置")
    case Some(folder) =>
      var base := fs.realPath(folder.path);
      var target := fs.realPath(JoinPath(folder.path, path));
      ServeTarget(target, StartsWith(target, base), fs)
  }

  /** `target` is `base` itself or lies inside it: what follows the prefix starts a
      new path component. */
  predicate WithinDir(target: string, base: string)
  {
    target == base || StartsWith(target, if EndsWith(base, "/") then base else base + "/")
  }

  /** The folder the intended route serves from: the live config, or else the one
      the configuration file holds, when it could be read. */
  function FindFolder(folders: Dict<FolderConfig>, reloaded: Option<Dict<FolderConfig>>, folderId: string): (r: Option<FolderConfig>)
    ensures r.None? <==> Get(folders, folderId).None? && (reloaded.None? || Get(reloaded.value, folderId).None?)
    ensures Get(folders, folderId).Some? ==> r == Get(folders, folderId)
  {
    if Get(folders, folderId).Some? then Get(folders, folderId)
    else if reloaded.Some? then Get(reloaded.value, folderId)
    else None
  }

  /** The route as evidently intended: when the live dict lacks the id, the
      reloaded configs are consulted; and a target is accepted only inside the
      folder's directory. */
  function GetRawFileIntended(folders: Dict<FolderConfig>, reloaded: Option<Dict<FolderConfig>>,
                              folderId: string, path: string, fs: FileSystem): (r: Response<FileServe>)
    ensures r == HttpError(404, "未找到对应的文件夹配置") <==> FindFolder(folders, reloaded, folderId).None?
    ensures FindFolder(folders, reloaded, folderId).Some? ==>
      var folder := FindFolder(folders, reloaded, folderId).value;
      var base := fs.realPath(folder.path);
      var target := fs.realPath(JoinPath(folder.path, path));
      && (!WithinDir(target, base) ==> r == HttpError(400, "非法路径"))
      && (WithinDir(target, base) && !fs.pathExists(target) ==> r == HttpError(404, "文件不存在"))
      && (WithinDir(target, base) && fs.pathExists(target) ==> r == Ok(FileServe(target, Basename(target))))
  {
    match FindFolder(folders, reloaded, folderId)
    case None => HttpError(404, "未找到对应的文件夹配置")
    case Some(folder) =>
      var base := fs.realPath(folder.path);
      var target := fs.realPath(JoinPath(folder.path, path));
      ServeTarget(target, WithinDir(target, base), fs)
  }

  /** What the intended test guarantees: the target extends the base, and what
      follows the base starts a new path component. */
  lemma WithinDirBoundary(t: string, base: string)
    requires WithinDir(t, base)
    ensures StartsWith(t, base)
    ensures |t| == |base| || EndsWith(base, "/") || t[|base|] == '/'
  {
    if !EndsWith(base, "/") && t != base {
      assert t[..|base| + 1] == base + "/";
      assert t[..|base|] == t[..|base| + 1][..|base|];
    }
  }

  /** The intended route serves only files inside the folder's resolved directory:
      the served path extends the base at a component boundary. */
  lemma IntendedServesInside(folders: Dict<FolderConfig>, reloaded: Option<Dict<FolderConfig>>,
                             folderId: string, path: string, fs: FileSystem)
    requires GetRawFileIntended(folders, reloaded, folderId, path, fs).Ok?
    ensures FindFolder(folders, reloaded, folderId).Some?
    ensures var t := GetRawFileIntended(folders, reloaded, folderId, path, fs).value.path;
      var base := fs.realPath(FindFolder(folders, reloaded, folderId).value.path);
      && StartsWith(t, base)
      && (|t| == |base| || EndsWith(base, "/") || t[|base|] == '/')
  {
    var folder := FindFolder(folders, reloaded, folderId).value;
    var t := GetRawFileIntended(folders, reloaded, folderId, path, fs).value.path;
    WithinDirBoundary(t, fs.realPath(folder.path));
  }

  /** A resolved target inside the base always passes the intended test, so nothing
      the folder holds is refused. */
  lemma WithinDirOfChild(base: string, rest: string)
    ensures WithinDir(if EndsWith(base, "/") then base + rest else base + "/" + rest, base)
  {
    if EndsWith(base, "/") {
      assert (base + rest)[..|base|] == base;
    } else {
      assert (base + "/" + rest)[..|base| + 1] == base + "/";
    }
  }

  /** A file system whose only odd path is the traversal `/srv/notes/../notes2/secret.txt`,
      which resolves to the sibling directory's file. */
  function SiblingFs(): FileSystem
  {
    FileSystem(
      (p: string) => p,
      (p: string) => if p == "/srv/notes/../notes2/secret.txt" then "/srv/notes2/secret.txt" else p,
      (p: string) => true,
      (p: string) => true,
      (p: string) => [],
      (p: string) => Failure(""),
      (p: string) => Failure(""),
      (p: string, q: string) => p)
  }

  function NotesFolder(): FolderConfig
  {
    NewFolderConfig("f1", "notes", "/srv/notes", Instant(0))
  }

  /** The traversal from the notes folder to the sibling's file, as `os.path.join`
      builds it. */
  lemma SiblingJoin()
    ensures JoinPath("/srv/notes", "../notes2/secret.txt") == "/srv/notes/../notes2/secret.txt"
  {
    assert ("../notes2/secret.txt")[..1][0] != ("/")[0];
    assert !EndsWith("/srv/notes", "/");
  }

  /** The sibling's file as `os.path.basename` names it. */
  lemma SiblingBasename()
    ensures Basename("/srv/notes2/secret.txt") == "secret.txt"
  {
    LastIndexOfAt("/srv/notes2/secret.txt", '/', 11);
  }

  /** The prefix test lets a sibling through: `/srv/notes2` starts with `/srv/notes`,
      so `../notes2/secret.txt` is served from outside the folder. */
  lemma SiblingDirectoryServed()
    ensures GetRawFile(Put(Empty(), "f1", NotesFolder()), "f1", "../notes2/secret.txt", SiblingFs())
      == Ok(FileServe("/srv/notes2/secret.txt", "secret.txt"))
  {
    var folders := Put(Empty(), "f1", NotesFolder());
    assert Get(folders, "f1") == Some(NotesFolder());
    SiblingJoin();
    SiblingBasename();
    assert StartsWith("/srv/notes2/secret.txt", "/srv/notes");
  }

  /** The intended test refuses the same request with 400: the sibling's file is
      not inside `/srv/notes`. */
  lemma SiblingDirectoryRefused()
    ensures !WithinDir("/srv/notes2/secret.txt", "/srv/notes")
    ensures GetRawFileIntended(Put(Empty(), "f1", NotesFolder()), None, "f1", "../notes2/secret.txt", SiblingFs())
      == HttpError(400, "非法路径")
  {
    var folders := Put(Empty(), "f1", NotesFolder());
    assert Get(folders, "f1") == Some(NotesFolder());
    SiblingJoin();
    SiblingBasename();
    var target := "/srv/notes2/secret.txt";
    assert !EndsWith("/srv/notes", "/");
    assert target[10] != ("/srv/notes/")[10];
  }

  /** The file `a.md` of the notes folder, as `os.path.join` builds it and as
      `os.path.basename` names it. */
  lemma NotesPaths()
    ensures JoinPath("/srv/notes", "a.md") == "/srv/notes/a.md"
    ensures Basename("/srv/notes/a.md") == "a.md"
    ensures WithinDir("/srv/notes/a.md", "/srv/notes")
  {
    assert ("a.md")[..1][0] != ("/")[0];
    assert !EndsWith("/srv/notes", "/");
    LastIndexOfAt("/srv/notes/a.md", '/', 10);
    assert ("/srv/notes/a.md")[..11] == "/srv/notes/";
  }

  /** The reload cannot help: a folder that only the configuration file holds
      answers 404 as written, and is found by the intended route. */
  lemma ReloadedFolderNotFound()
    ensures GetRawFile(Empty(), "f1", "a.md", SiblingFs()) == HttpError(404, "未找到对应的文件夹配置")
    ensures GetRawFileIntended(Empty(), Some(Put(Empty(), "f1", NotesFolder())), "f1", "a.md", SiblingFs())
      == Ok(FileServe("/srv/notes/a.md", "a.md"))
  {
    var reloaded := Put(Empty(), "f1", NotesFolder());
    assert Get(reloaded, "f1") == Some(NotesFolder());
    assert FindFolder(Empty(), Some(reloaded), "f1") == Some(NotesFolder());
    NotesPaths();
  }
}

=== FILE: common.dfy ===
/** Values shared by every part of the model: optional values and the outcome of a
    step that may raise a Python exception. */
module Common {

  /** Python's `Optional[T]`: `None` or a value. */
  datatype Option<+T> = None | Some(value: T)

  /** The outcome of a call that may raise: its value, or the text `str(exc)` of the
      exception it raised. */
  datatype Result<+T> = Success(value: T) | Failure(error: string)

  function Min(a: int, b: int): int
  {
    if a <= b then a else b
  }

  /** The element at `i`, or `default` past the end of a list that ran short. */
  function At<T>(xs: seq<T>, i: nat, default: T): T
  {
    if i < |xs| then xs[i] else default
  }

  /** The elements of `xs` that pass `keep`, in order. */
  function Filter<T>(xs: seq<T>, keep: T -> bool): (r: seq<T>)
    ensures |r| <= |xs|
    decreases |xs|
  {
    if xs == [] then []
    else (if keep(xs[0]) then [xs[0]] else []) + Filter(xs[1..], keep)
  }

  /** The comprehension keeps exactly the elements that pass the test. */
  lemma {:induction false} FilterMember<T>(xs: seq<T>, keep: T -> bool, x: T)
    ensures x in Filter(xs, keep) <==> x in xs && keep(x)
    decreases |xs|
  {
    if xs != [] {
      FilterMember(xs[1..], keep, x);
      assert x in xs <==> x == xs[0] || x in xs[1..];
    }
  }
}

=== FILE: dicts.dfy ===
/** Python's `dict` with string keys: a finite map that remembers the order in which
    its keys were first inserted. `FOLDER_CONFIGS` and `SCAN_JOBS` are such dicts, and
    listing them follows that order. */
module Dicts {
  import opened Common

  predicate Distinct(ks: seq<string>)
  {
    forall i, j :: 0 <= i < j < |ks| ==> ks[i] != ks[j]
  }

  /** The keys in insertion order, and the map they index. */
  datatype Dict<V> = Dict(keys: seq<string>, entries: map<string, V>)

  /** The key order lists every key of the map exactly once. */
  ghost predicate Valid<V>(d: Dict<V>)
  {
    && Distinct(d.keys)
    && (forall k :: k in d.entries <==> k in d.keys)
  }

  function Empty<V>(): (d: Dict<V>)
    ensures Valid(d) && d.keys == []
  {
    Dict([], map[])
  }

  /** `d.get(k)` */
  function Get<V>(d: Dict<V>, k: string): Option<V>
  {
    if k in d.entries then Some(d.entries[k]) else None
  }

  /** `d[k] = v`: `k` now maps to `v`, every other key keeps its value, a new key
      goes to the end of the order and an existing key keeps its place. */
  function Put<V>(d: Dict<V>, k: string, v: V): (r: Dict<V>)
    requires Valid(d)
    ensures Valid(r)
    ensures Get(r, k) == Some(v)
    ensures forall k' :: k' != k ==> Get(r, k') == Get(d, k')
    ensures k in d.entries ==> r.keys == d.keys
    ensures k !in d.entries ==> r.keys == d.keys + [k]
  {
    Dict(if k in d.entries then d.keys else d.keys + [k], d.entries[k := v])
  }

  /** The keys other than `k`, in their original order. */
  function Without(ks: seq<string>, k: string): (r: seq<string>)
    ensures forall x :: x in r <==> x in ks && x != k
    ensures Distinct(ks) ==> Distinct(r)
    ensures |r| <= |ks|
    decreases |ks|
  {
    if ks == [] then []
    else if ks[0] == k then Without(ks[1..], k)
    else
      var rest := Without(ks[1..], k);
      assert Distinct(ks) ==> ks[0] !in ks[1..];
      [ks[0]] + rest
  }

  /** `del d[k]`: `k` is gone, every other key keeps its value and its place. */
  function Remove<V>(d: Dict<V>, k: string): (r: Dict<V>)
    requires Valid(d)
    ensures Valid(r)
    ensures Get(r, k) == None
    ensures forall k' :: k' != k ==> Get(r, k') == Get(d, k')
    ensures k in d.entries ==> |r.keys| == |d.keys| - 1
    ensures k !in d.entries ==> r.keys == d.keys
    ensures forall p :: 0 <= p < |d.keys| && d.keys[p] == k ==> r.keys == d.keys[..p] + d.keys[p + 1..]
  {
    var r := Dict(Without(d.keys, k), d.entries - {k});
    assert k in d.entries ==> |r.keys| == |d.keys| - 1 by {
      if k in d.entries {
        WithoutPresent(d.keys, k);
      }
    }
    assert k !in d.entries ==> r.keys == d.keys by {
      if k !in d.entries {
        WithoutAbsent(d.keys, k);
      }
    }
    forall p | 0 <= p < |d.keys| && d.keys[p] == k
      ensures r.keys == d.keys[..p] + d.keys[p + 1..]
    {
      WithoutAt(d.keys, k, p);
    }
    r
  }

  /** Dropping a key that sits at position `p` of a duplicate-free order closes the
      gap: the keys before and after it stay where they were relative to each other. */
  lemma {:induction false} WithoutAt(ks: seq<string>, k: string, p: nat)
    requires Distinct(ks) && p < |ks| && ks[p] == k
    ensures Without(ks, k) == ks[..p] + ks[p + 1..]
    decreases p
  {
    if p == 0 {
      WithoutAbsent(ks[1..], k);
    } else {
      assert Distinct(ks[1..]);
      WithoutAt(ks[1..], k, p - 1);
      assert ks[1..][..p - 1] == ks[1..p];
      assert ks[1..][p..] == ks[p + 1..];
      assert [ks[0]] + ks[1..p] == ks[..p];
    }
  }

  lemma {:induction false} WithoutPresent(ks: seq<string>, k: string)
    requires Distinct(ks) && k in ks
    ensures |Without(ks, k)| == |ks| - 1
    decreases |ks|
  {
    if ks[0] != k {
      assert Distinct(ks[1..]);
      WithoutPresent(ks[1..], k);
    } else {
      WithoutAbsent(ks[1..], k);
    }
  }

  lemma {:induction false} WithoutAbsent(ks: seq<string>, k: string)
    requires k !in ks
    ensures Without(ks, k) == ks
    decreases |ks|
  {
    if ks != [] {
      WithoutAbsent(ks[1..], k);
    }
  }

  /** `list(d.values())`: the values in key order. */
  function Values<V>(d: Dict<V>): (r: seq<V>)
    requires Valid(d)
    ensures |r| == |d.keys|
    ensures forall i :: 0 <= i < |r| ==> Get(d, d.keys[i]) == Some(r[i])
  {
    seq(|d.keys|, i requires 0 <= i < |d.keys| => d.entries[d.keys[i]])
  }
}

=== FILE: env.dfy ===
/** What the core asks of the world outside it. The filesystem, the language model,
    the embedding endpoint and the Chroma collection appear as total functions
    supplied by the caller; a call that raises returns `Failure` with the text of the
    exception. */
module Env {
  import opened Common
  import opened Json
  import opened Schemas

  /** One `(dirpath, dirnames, filenames)` triple produced by `os.walk`. */
  datatype WalkDir = WalkDir(root: string, files: seq<string>)

  /** What `datetime.fromtimestamp(os.stat(path).st_mtime)` yields, as the scanner
      uses it: `isoformat()`, `year` and `month`. */
  datatype FileTime = FileTime(iso: string, year: int, month: int)

  datatype FileSystem = FileSystem(
    absPath: string -> string,                // os.path.abspath
    realPath: string -> string,               // os.path.realpath
    isDir: string -> bool,                    // os.path.isdir
    pathExists: string -> bool,               // os.path.exists
    walk: string -> seq<WalkDir>,             // os.walk, in the order it yields
    read: string -> Result<string>,           // open(..., errors="ignore").read()
    stat: string -> Result<FileTime>,         // os.stat + datetime.fromtimestamp
    relPath: (string, string) -> string)      // os.path.relpath(path, start)

  /** What `collection.query` returns: `documents` and `metadatas`, one inner list
      per query embedding, either of which may be missing. */
  datatype QueryResult = QueryResult(
    documents: Option<seq<seq<string>>>,
    metadatas: Option<seq<seq<Option<Metadata>>>>)

  /** What `collection.get` returns; `ids`, `documents` and `metadatas` may each be
      missing, and single documents and metadatas may be `None`. */
  datatype GetResult = GetResult(
    ids: Option<seq<string>>,
    documents: Option<seq<Option<string>>>,
    metadatas: Option<seq<Option<Metadata>>>)

  datatype Services = Services(
    complete: string -> Result<string>,            // summary completion for a document prefix
    decode: string -> Option<Json>,                // json.loads; None on JSONDecodeError
    chat: (string, string) -> Result<string>,      // answer completion for (question, context)
    embed: seq<string> -> Result<seq<Vector>>,     // client.embeddings.create
    add: Batch -> Option<string>,                  // collection.add; Some(text) if it raised
    query: (Vector, int) -> Result<QueryResult>,   // collection.query
    count: Result<int>,                            // collection.count
    get: (int, int) -> Result<GetResult>)          // collection.get(limit, offset)
}

=== FILE: json.dfy ===
/** Parsed JSON values as Python's `json` module hands them over, their Python
    truthiness, `dict.get`, and `json.dumps(value, ensure_ascii=False)`. */
module Json {
  import opened Common
  import opened Text

  /** A value `json.loads` can return. A float is kept as its Python `repr` text
      (`"0.0"`, `"1.5"`, `"nan"`, ...); an object lists the items in the order the
      text gives them. When a key repeats, a Python dict keeps the last value (at the
      first key's place), and `Lookup` follows that rule. */
  datatype Json =
    | JNull
    | JBool(b: bool)
    | JInt(i: int)
    | JFloat(repr: string)
    | JString(s: string)
    | JArray(items: seq<Json>)
    | JObject(fields: seq<(string, Json)>)

  /** Python's `bool(value)`: `None`, `False`, zero, and empty strings, lists and
      dicts are falsy. */
  predicate Truthy(j: Json)
  {
    match j
    case JNull => false
    case JBool(b) => b
    case JInt(i) => i != 0
    case JFloat(r) => r != "0.0" && r != "-0.0"
    case JString(s) => s != []
    case JArray(xs) => xs != []
    case JObject(fs) => fs != []
  }

  /** `d.get(key)` on the items a dict was built from: the value stored under `key`
      (the last one given, when the key repeats), or `None`. */
  function Lookup(fields: seq<(string, Json)>, key: string): (r: Option<Json>)
    ensures r.Some? <==> exists i :: 0 <= i < |fields| && fields[i].0 == key
    ensures r.Some? ==> exists i :: 0 <= i < |fields| && fields[i] == (key, r.value)
    decreases |fields|
  {
    if fields == [] then None
    else if fields[|fields| - 1].0 == key then Some(fields[|fields| - 1].1)
    else
      var r := Lookup(fields[..|fields| - 1], key);
      assert forall i :: 0 <= i < |fields| - 1 ==> fields[i] == fields[..|fields| - 1][i];
      r
  }

  /** The value under `key` is the one of its last occurrence. */
  lemma {:induction false} LookupAt(fields: seq<(string, Json)>, key: string, i: nat)
    requires i < |fields| && fields[i].0 == key
    requires forall j :: i < j < |fields| ==> fields[j].0 != key
    ensures Lookup(fields, key) == Some(fields[i].1)
    decreases |fields|
  {
    if i < |fields| - 1 {
      LookupAt(fields[..|fields| - 1], key, i);
    }
  }

  /** `type(value).__name__`, as it appears in Python's error messages. */
  function TypeName(j: Json): string
  {
    match j
    case JNull => "NoneType"
    case JBool(_) => "bool"
    case JInt(_) => "int"
    case JFloat(_) => "float"
    case JString(_) => "str"
    case JArray(_) => "list"
    case JObject(_) => "dict"
  }

  // ---------------------------------------------------------------------------
  // Encoding: json.dumps(..., ensure_ascii=False)
  // ---------------------------------------------------------------------------

  function HexDigit(d: nat): char
    requires d < 16
  {
    "0123456789abcdef"[d]
  }

  /** How the encoder writes one character of a string: quote, backslash and the
      named control characters get a two-character escape, the other control
      characters `\u00xx`, everything else (non-ASCII included) stays as it is. */
  function EscapeChar(c: char): string
  {
    if c == '"' then "\\\""
    else if c == '\\' then "\\\\"
    else if c == '\n' then "\\n"
    else if c == '\r' then "\\r"
    else if c == '\t' then "\\t"
    else if c == '\U{8}' then "\\b"
    else if c == '\U{C}' then "\\f"
    else if c < ' ' then "\\u00" + [HexDigit(c as int / 16), HexDigit(c as int % 16)]
    else [c]
  }

  function Escape(s: string): string
    decreases |s|
  {
    if s == [] then [] else EscapeChar(s[0]) + Escape(s[1..])
  }

  /** A JSON string literal. */
  function Quote(s: string): string
  {
    "\"" + Escape(s) + "\""
  }

  /** The text `json.dumps` writes for a float with the given `repr`. */
  function FloatText(repr: string): string
  {
    if repr == "nan" then "NaN"
    else if repr == "inf" then "Infinity"
    else if repr == "-inf" then "-Infinity"
    else repr
  }

  /** The keys of an object's items, in order. */
  function Keys(fs: seq<(string, Json)>): (r: seq<string>)
    ensures |r| == |fs|
    ensures forall k :: 0 <= k < |fs| ==> r[k] == fs[k].0
  {
    seq(|fs|, k requires 0 <= k < |fs| => fs[k].0)
  }

  /** The positions from `i` on where a key occurs for the first time, in order:
      the key order of the dict the items build. */
  function FirstOccurrences(fs: seq<(string, Json)>, i: nat): (r: seq<nat>)
    requires i <= |fs|
    ensures forall m :: 0 <= m < |r| ==> i <= r[m] < |fs| && fs[r[m]].0 !in Keys(fs)[..r[m]]
    ensures forall m, n :: 0 <= m < n < |r| ==> r[m] < r[n]
    ensures forall p :: i <= p < |fs| && fs[p].0 !in Keys(fs)[..p] ==> p in r
    decreases |fs| - i
  {
    if i == |fs| then []
    else (if fs[i].0 in Keys(fs)[..i] then [] else [i]) + FirstOccurrences(fs, i + 1)
  }

  /** The first occurrences carry distinct keys. */
  lemma FirstOccurrencesDistinct(fs: seq<(string, Json)>)
    ensures var r := FirstOccurrences(fs, 0);
      forall m, n :: 0 <= m < n < |r| ==> fs[r[m]].0 != fs[r[n]].0
  {
    var r := FirstOccurrences(fs, 0);
    forall m, n | 0 <= m < n < |r|
      ensures fs[r[m]].0 != fs[r[n]].0
    {
      assert Keys(fs)[..r[n]][r[m]] == fs[r[m]].0;
    }
  }

  /** Every key of the items has a first occurrence: entry `m` of the encoding
      writes the key found at `p`. */
  lemma FirstOccurrencesCover(fs: seq<(string, Json)>, p: nat) returns (m: nat)
    requires p < |fs|
    ensures m < |FirstOccurrences(fs, 0)| && fs[FirstOccurrences(fs, 0)[m]].0 == fs[p].0
  {
    var r := FirstOccurrences(fs, 0);
    var q := FirstOf(fs, p);
    assert q in r;
    m :| 0 <= m < |r| && r[m] == q;
  }

  /** The first position holding the key found at `p`. */
  ghost function FirstOf(fs: seq<(string, Json)>, p: nat): (q: nat)
    requires p < |fs|
    ensures q <= p && fs[q].0 == fs[p].0 && fs[q].0 !in Keys(fs)[..q]
    decreases p
  {
    if fs[p].0 !in Keys(fs)[..p] then p
    else
      var j :| 0 <= j < p && Keys(fs)[..p][j] == fs[p].0;
      FirstOf(fs, j)
  }

  /** The last position before `n` holding `key`. */
  function LastOccurrence(fs: seq<(string, Json)>, key: string, n: nat): (r: nat)
    requires n <= |fs| && key in Keys(fs)[..n]
    ensures r < n && fs[r].0 == key
    ensures forall j :: r < j < n ==> fs[j].0 != key
    decreases n
  {
    if fs[n - 1].0 == key then n - 1
    else
      assert Keys(fs)[..n] == Keys(fs)[..n - 1] + [fs[n - 1].0];
      LastOccurrence(fs, key, n - 1)
  }

  /** The texts of a list's items, one per item. */
  function ItemTexts(j: Json): (r: seq<string>)
    requires j.JArray?
    ensures |r| == |j.items|
    ensures forall k :: 0 <= k < |j.items| ==> r[k] == Dumps(j.items[k])
    decreases j, 0
  {
    seq(|j.items|, k requires 0 <= k < |j.items| => Dumps(j.items[k]))
  }

  /** The `"key": value` texts of an object: one per distinct key, in the order the
      keys first occur, each with the value `get` returns for it (the last one given). */
  function FieldTexts(j: Json): (r: seq<string>)
    requires j.JObject?
    ensures var firsts := FirstOccurrences(j.fields, 0);
      && |r| == |firsts|
      && forall m :: 0 <= m < |firsts| ==>
           var key := j.fields[firsts[m]].0;
           Lookup(j.fields, key).Some? && r[m] == Quote(key) + ": " + Dumps(Lookup(j.fields, key).value)
    decreases j, 0
  {
    var fs := j.fields;
    var firsts := FirstOccurrences(fs, 0);
    assert Keys(fs)[..|fs|] == Keys(fs);
    var r := seq(|firsts|, m requires 0 <= m < |firsts| =>
      Quote(fs[firsts[m]].0) + ": " + Dumps(fs[LastOccurrence(fs, fs[firsts[m]].0, |fs|)].1));
    forall m | 0 <= m < |firsts|
      ensures Lookup(fs, fs[firsts[m]].0) == Some(fs[LastOccurrence(fs, fs[firsts[m]].0, |fs|)].1)
    {
      LookupAt(fs, fs[firsts[m]].0, LastOccurrence(fs, fs[firsts[m]].0, |fs|));
    }
    r
  }

  /** `json.dumps(j, ensure_ascii=False)` with the default separators `", "` and
      `": "`. A string is written as a quoted literal that decodes back to it; a
      list as its items' texts between brackets; an object as the dict it stands
      for, one entry per distinct key. */
  function Dumps(j: Json): (r: string)
    ensures j.JString? ==> |r| >= 2 && r[0] == '"' && r[|r| - 1] == '"' && Unescape(r[1..|r| - 1]) == Some(j.s)
    ensures j.JArray? ==> r == "[" + Join(ItemTexts(j), ", ") + "]"
    ensures j == JArray([]) ==> r == "[]"
    ensures j.JObject? ==> r == "{" + Join(FieldTexts(j), ", ") + "}"
    decreases j, 1
  {
    match j
    case JNull => "null"
    case JBool(b) => if b then "true" else "false"
    case JInt(i) => IntToString(i)
    case JFloat(r) => FloatText(r)
    case JString(s) =>
      UnescapeEscape(s);
      var r := Quote(s);
      assert r[1..|r| - 1] == Escape(s);
      r
    case JArray(_) => "[" + Join(ItemTexts(j), ", ") + "]"
    case JObject(_) => "{" + Join(FieldTexts(j), ", ") + "}"
  }

  // ---------------------------------------------------------------------------
  // Decoding the body of a string literal, as json.loads does
  // ---------------------------------------------------------------------------

  function HexValue(c: char): Option<nat>
  {
    if '0' <= c <= '9' then Some(c as int - '0' as int)
    else if 'a' <= c <= 'f' then Some(c as int - 'a' as int + 10)
    else if 'A' <= c <= 'F' then Some(c as int - 'A' as int + 10)
    else None
  }

  /** The character a `\uXXXX` escape stands for, when its four digits are hex and
      name a scalar value. */
  function HexEscapeChar(h: string): Option<char>
    requires |h| == 4
  {
    match (HexValue(h[0]), HexValue(h[1]), HexValue(h[2]), HexValue(h[3]))
    case (Some(a), Some(b), Some(c), Some(d)) =>
      var v := ((a * 16 + b) * 16 + c) * 16 + d;
      if v < 0xD800 then Some(v as char) else if 0xE000 <= v then Some(v as char) else None
    case _ => None
  }

  /** The character a two-character escape `\k` stands for. */
  function SimpleEscape(k: char): Option<char>
  {
    if k == '"' then Some('"')
    else if k == '\\' then Some('\\')
    else if k == '/' then Some('/')
    else if k == 'b' then Some('\U{8}')
    else if k == 'f' then Some('\U{C}')
    else if k == 'n' then Some('\n')
    else if k == 'r' then Some('\r')
    else if k == 't' then Some('\t')
    else None
  }

  function Prepend(c: char, rest: Option<string>): Option<string>
  {
    match rest
    case Some(r) => Some([c] + r)
    case None => None
  }

  /** The characters a string literal's body denotes under `json.loads`, or `None`
      when the body is malformed: a lone backslash, an unknown escape, a raw quote or
      a raw control character. Unlike `json.loads`, it also refuses `\u` escapes in
      the surrogate range D800-DFFF, which a Dafny `char` cannot hold; the encoder
      never writes one, so the round trip below is unaffected. */
  function Unescape(e: string): Option<string>
    decreases |e|
  {
    if e == [] then Some([])
    else if e[0] == '"' || e[0] < ' ' then None
    else if e[0] != '\\' then Prepend(e[0], Unescape(e[1..]))
    else if |e| < 2 then None
    else if e[1] == 'u' then
      if |e| < 6 then None
      else
        match HexEscapeChar(e[2..6])
        case Some(c) => Prepend(c, Unescape(e[6..]))
        case None => None
    else
      match SimpleEscape(e[1])
      case Some(c) => Prepend(c, Unescape(e[2..]))
      case None => None
  }

  /** A control character without a short escape decodes from its `\u00xx` form. */
  lemma HexEscapeDecodes(c: char, rest: string)
    requires c < ' ' && c != '\n' && c != '\r' && c != '\t' && c != '\U{8}' && c != '\U{C}'
    ensures Unescape(EscapeChar(c) + rest) == Prepend(c, Unescape(rest))
  {
    var e := EscapeChar(c) + rest;
    var hi, lo := c as int / 16, c as int % 16;
    assert e[2..6] == ['0', '0', HexDigit(hi), HexDigit(lo)];
    assert HexValue(HexDigit(hi)) == Some(hi);
    assert HexValue(HexDigit(lo)) == Some(lo);
    assert HexEscapeChar(e[2..6]) == Some(c);
    assert e[6..] == rest;
  }

  lemma EscapeCharDecodes(c: char, rest: string)
    ensures Unescape(EscapeChar(c) + rest) == Prepend(c, Unescape(rest))
  {
    var e := EscapeChar(c) + rest;
    if c < ' ' && c != '\n' && c != '\r' && c != '\t' && c != '\U{8}' && c != '\U{C}' {
      HexEscapeDecodes(c, rest);
    } else if |EscapeChar(c)| == 2 {
      assert e[2..] == rest;
    } else {
      assert e[1..] == rest;
    }
  }

  /** Decoding an encoded string gives the string back, so the encoding loses
      nothing. */
  lemma {:induction false} UnescapeEscape(s: string)
    ensures Unescape(Escape(s)) == Some(s)
    decreases |s|
  {
    if s != [] {
      UnescapeEscape(s[1..]);
      EscapeCharDecodes(s[0], Escape(s[1..]));
      assert [s[0]] + s[1..] == s;
    }
  }
}

=== FILE: llm.dfy ===
/** `app/services/llm.py`: fixed-width chunking, the empty-batch shortcut of the
    embedding call, and the normalisation of the summary the model returns. The model
    and embedding calls themselves are `Services` functions. */
module Llm {
  import opened Common
  import opened Text
  import opened Json
  import opened Schemas
  import opened Env

  /** `chunk_text`'s default `max_chars`. */
  const DefaultMaxChars: nat := 500

  /** `summarize_document`'s default `max_input_chars`. */
  const MaxInputChars: nat := 4000

  /** The full-width comma `，` that keyword strings may use instead of `,`. */
  const FullWidthComma: char := '\U{FF0C}'

  // ---------------------------------------------------------------------------
  // chunk_text
  // ---------------------------------------------------------------------------

  function Concat(parts: seq<string>): string
    decreases |parts|
  {
    if parts == [] then [] else parts[0] + Concat(parts[1..])
  }

  /** The slices of width `n` of `t`, starting at `start` and stepping by `n`; the
      last one may be shorter. */
  function SlicesFrom(t: string, n: nat, start: nat): seq<string>
    requires n > 0
    decreases |t| - start
  {
    if start >= |t| then [] else [t[start..Min(start + n, |t|)]] + SlicesFrom(t, n, start + n)
  }

  /** `parts` cuts `t` into consecutive pieces: together they spell `t`, none is
      empty, none is longer than `n`, all but the last are exactly `n` long, and
      there are ceil(|t| / n) of them. */
  ghost predicate Segmented(t: string, n: nat, parts: seq<string>)
    requires n > 0
  {
    && Concat(parts) == t
    && (forall k :: 0 <= k < |parts| ==> 0 < |parts[k]| <= n)
    && (forall k :: 0 <= k < |parts| - 1 ==> |parts[k]| == n)
    && |parts| == (|t| + n - 1) / n
  }

  lemma {:induction false} MulGrows(d: int, n: int)
    requires n > 0 && d >= 1
    ensures d * n >= n
    decreases d
  {
    if d > 1 {
      MulGrows(d - 1, n);
      assert d * n == (d - 1) * n + n;
    }
  }

  /** Euclidean division has one quotient. */
  lemma DivUnique(a: int, n: int, q: int, r: int)
    requires n > 0 && 0 <= r < n && a == q * n + r
    ensures a / n == q
  {
    var d := a / n - q;
    assert a == (a / n) * n + a % n;
    assert d * n == r - a % n;
    if d >= 1 {
      MulGrows(d, n);
    } else if d <= -1 {
      MulGrows(-d, n);
    }
  }

  /** One more full slice adds one to the ceiling. */
  lemma CeilStep(x: nat, n: nat)
    requires n > 0
    ensures (x + n + n - 1) / n == (x + n - 1) / n + 1
  {
    var y := x + n - 1;
    var q, r := y / n, y % n;
    assert y == q * n + r;
    assert y + n == (q + 1) * n + r;
    DivUnique(y + n, n, q + 1, r);
  }

  /** The slices from `start` on spell the rest of `t`. */
  lemma {:induction false} SlicesConcat(t: string, n: nat, start: nat)
    requires n > 0 && start <= |t|
    ensures Concat(SlicesFrom(t, n, start)) == t[start..]
    decreases |t| - start
  {
    var r := SlicesFrom(t, n, start);
    if start < |t| {
      var end := Min(start + n, |t|);
      SlicesConcat(t, n, end);
      assert SlicesFrom(t, n, start + n) == SlicesFrom(t, n, end);
      assert r[1..] == SlicesFrom(t, n, end);
      assert t[start..] == t[start..end] + t[end..];
    }
  }

  /** Every slice is non-empty and at most `n` long, and all but the last are
      exactly `n` long. */
  lemma {:induction false} SlicesLengths(t: string, n: nat, start: nat)
    requires n > 0
    ensures forall k :: 0 <= k < |SlicesFrom(t, n, start)| ==> 0 < |SlicesFrom(t, n, start)[k]| <= n
    ensures forall k :: 0 <= k < |SlicesFrom(t, n, start)| - 1 ==> |SlicesFrom(t, n, start)[k]| == n
    decreases |t| - start
  {
    if start < |t| {
      var r := SlicesFrom(t, n, start);
      var rest := SlicesFrom(t, n, start + n);
      SlicesLengths(t, n, start + n);
      assert r == [t[start..Min(start + n, |t|)]] + rest;
      assert |r[0]| == Min(start + n, |t|) - start;
      assert |rest| > 0 ==> start + n < |t|;
      forall k | 1 <= k < |r|
        ensures r[k] == rest[k - 1]
      {
      }
    }
  }

  /** There are ceil((|t| - start) / n) slices. */
  lemma {:induction false} SlicesCount(t: string, n: nat, start: nat)
    requires n > 0 && start <= |t|
    ensures |SlicesFrom(t, n, start)| == (|t| - start + n - 1) / n
    decreases |t| - start
  {
    if start == |t| {
      DivUnique(n - 1, n, 0, n - 1);
    } else if start + n >= |t| {
      assert SlicesFrom(t, n, start + n) == [];
      DivUnique(|t| - start + n - 1, n, 1, |t| - start - 1);
    } else {
      SlicesCount(t, n, start + n);
      CeilStep(|t| - start - n, n);
    }
  }

  /** The slices from `start` on segment the rest of `t`. */
  lemma SlicesSegment(t: string, n: nat, start: nat)
    requires n > 0 && start <= |t|
    ensures Segmented(t[start..], n, SlicesFrom(t, n, start))
  {
    SlicesConcat(t, n, start);
    SlicesLengths(t, n, start);
    SlicesCount(t, n, start);
  }

  /** One more row of `n`. */
  lemma MulStep(k: int, n: int)
    ensures (k - 1) * n + n == k * n
  {
  }

  /** Slice `k` is `t[start + k * n : start + k * n + n]`, as the comprehension
      writes it. */
  lemma {:induction false} SliceAt(t: string, n: nat, start: nat, k: nat)
    requires n > 0 && k < |SlicesFrom(t, n, start)|
    ensures start + k * n < |t|
    ensures SlicesFrom(t, n, start)[k] == t[start + k * n..Min(start + k * n + n, |t|)]
    decreases k
  {
    if k > 0 {
      SliceAt(t, n, start + n, k - 1);
      MulStep(k, n);
    }
  }

  /** `chunk_text(text, max_chars)`. A zero `max_chars` makes `range` raise
      `ValueError` once the text is longer than zero characters; a negative one gives
      an empty range. */
  function ChunkText(text: string, maxChars: int): (r: Result<seq<string>>)
    ensures AllSpace(text) ==> r == Success([])
    ensures !AllSpace(text) && |Strip(text)| <= maxChars ==> r == Success([Strip(text)])
    ensures r.Failure? <==> maxChars == 0 && !AllSpace(text)
    ensures maxChars < 0 ==> r == Success([])
  {
    var t := Strip(text);
    if t == [] then Success([])
    else if |t| <= maxChars then Success([t])
    else if maxChars == 0 then Failure("range() arg 3 must not be zero")
    else if maxChars < 0 then Success([])
    else Success(SlicesFrom(t, maxChars, 0))
  }

  /** Text that fits in one piece is segmented by itself alone. */
  lemma SingleSegment(t: string, n: nat)
    requires n > 0 && 0 < |t| <= n
    ensures Segmented(t, n, [t])
  {
    assert Concat([t]) == t + Concat([]);
    DivUnique(|t| + n - 1, n, 1, |t| - 1);
  }

  /** The empty text is segmented by no pieces. */
  lemma EmptySegment(n: nat)
    requires n > 0
    ensures Segmented([], n, [])
  {
    DivUnique(n - 1, n, 0, n - 1);
  }

  /** With a positive width the chunks cut the stripped text into consecutive
      pieces of `maxChars` characters, the last one possibly shorter. */
  lemma ChunkTextSegments(text: string, maxChars: int)
    requires maxChars > 0
    ensures ChunkText(text, maxChars).Success?
    ensures Segmented(Strip(text), maxChars, ChunkText(text, maxChars).value)
  {
    var t := Strip(text);
    if t == [] {
      EmptySegment(maxChars);
    } else if |t| <= maxChars {
      SingleSegment(t, maxChars);
    } else {
      SlicesSegment(t, maxChars, 0);
      assert t[0..] == t;
    }
  }

  /** `chunk_text(text)` with the default width of 500, as both callers use it. */
  function ChunkTextDefault(text: string): (r: seq<string>)
    ensures r == [] <==> AllSpace(text)
  {
    ChunkText(text, DefaultMaxChars).value
  }

  /** The default chunks segment the stripped text into pieces of 500. */
  lemma ChunkTextDefaultSegments(text: string)
    ensures Segmented(Strip(text), DefaultMaxChars, ChunkTextDefault(text))
  {
    ChunkTextSegments(text, DefaultMaxChars);
  }

  // ---------------------------------------------------------------------------
  // embed_texts
  // ---------------------------------------------------------------------------

  /** `embed_texts(texts)`: an empty batch is answered with `[]` without asking the
      provider, whatever the provider would have said; any other batch is the
      provider's answer. */
  function EmbedTexts(texts: seq<string>, svc: Services): (r: Result<seq<Vector>>)
    ensures texts == [] ==> r == Success([])
    ensures texts != [] ==> r == svc.embed(texts)
  {
    if texts == [] then Success([]) else svc.embed(texts)
  }

  // ---------------------------------------------------------------------------
  // summarize_document: normalising the model's answer
  // ---------------------------------------------------------------------------

  /** The `{"summary": ..., "keywords": [...]}` dict `summarize_document` returns.
      The summary is whatever truthy value the model put there, or `""`. */
  datatype Summary = Summary(summary: Json, keywords: seq<Json>)

  /** A keyword string cut at every comma, full-width commas counting as commas. */
  function KeywordPieces(s: string): seq<string>
  {
    Split(ReplaceChar(s, FullWidthComma, ','), ',')
  }

  /** The pieces with surrounding whitespace removed, blank ones dropped. */
  function StripNonBlank(pieces: seq<string>): (r: seq<string>)
    ensures |r| <= |pieces|
    decreases |pieces|
  {
    if pieces == [] then []
    else
      var t := Strip(pieces[0]);
      if t != [] then [t] + StripNonBlank(pieces[1..]) else StripNonBlank(pieces[1..])
  }

  /** The comprehension keeps exactly the stripped forms of the pieces that are not
      blank. */
  lemma {:induction false} StripNonBlankMembers(pieces: seq<string>, k: string)
    ensures k in StripNonBlank(pieces) <==> k != [] && exists p :: p in pieces && Strip(p) == k
    decreases |pieces|
  {
    if pieces != [] {
      StripNonBlankMembers(pieces[1..], k);
      var rest := StripNonBlank(pieces[1..]);
      if k in StripNonBlank(pieces) {
        if k in rest {
          var p :| p in pieces[1..] && Strip(p) == k;
          assert p in pieces;
        } else {
          assert Strip(pieces[0]) == k && pieces[0] in pieces;
        }
      }
      if k != [] && exists p :: p in pieces && Strip(p) == k {
        var p :| p in pieces && Strip(p) == k;
        if p != pieces[0] {
          assert p in pieces[1..];
        }
      }
    }
  }


  /** A keyword string split on `,` and `，`: the non-blank pieces, stripped. */
  function SplitKeywords(s: string): (r: seq<string>)
    ensures |r| <= Count(ReplaceChar(s, FullWidthComma, ','), ',') + 1
  {
    StripNonBlank(KeywordPieces(s))
  }

  /** The keywords are exactly the stripped non-blank pieces between the commas of
      either width. */
  lemma SplitKeywordsMembers(s: string, k: string)
    ensures k in SplitKeywords(s) <==> k != [] && exists p :: p in KeywordPieces(s) && Strip(p) == k
  {
    StripNonBlankMembers(KeywordPieces(s), k);
  }

  /** Every keyword is non-empty, has no surrounding whitespace and holds neither
      kind of comma. */
  lemma SplitKeywordsClean(s: string, k: string)
    requires k in SplitKeywords(s)
    ensures k != [] && Strip(k) == k
    ensures ',' !in k && FullWidthComma !in k
  {
    var p := KeywordSource(s, k);
    StripIdempotent(p);
    PieceHasNoComma(s, p);
    StripInside(p);
  }

  /** The piece a keyword was stripped from. */
  lemma KeywordSource(s: string, k: string) returns (p: string)
    requires k in SplitKeywords(s)
    ensures p in KeywordPieces(s) && Strip(p) == k && k != []
  {
    SplitKeywordsMembers(s, k);
    p :| p in KeywordPieces(s) && Strip(p) == k;
  }

  /** No piece of the split holds a comma of either width. */
  lemma PieceHasNoComma(s: string, p: string)
    requires p in KeywordPieces(s)
    ensures ',' !in p && FullWidthComma !in p
  {
    var replaced := ReplaceChar(s, FullWidthComma, ',');
    var pieces := Split(replaced, ',');
    var i :| 0 <= i < |pieces| && pieces[i] == p;
    SplitPieceChars(replaced, ',', i);
    assert FullWidthComma !in replaced;
  }

  /** Every character of `s.strip()` is a character of `s`. */
  lemma StripInside(s: string)
    ensures forall c :: c in Strip(s) ==> c in s
  {
    StripKeepsMiddle(s);
    var a := |s| - |TrimStart(s)|;
    var r := Strip(s);
    forall j | 0 <= j < |r|
      ensures r[j] in s
    {
      assert r[j] == s[a + j];
    }
  }

  lemma {:induction false} SplitPieceChars(s: string, sep: char, i: int)
    requires 0 <= i < |Split(s, sep)|
    ensures forall c :: c in Split(s, sep)[i] ==> c in s
    decreases |s|
  {
    if s != [] {
      var rest := Split(s[1..], sep);
      if s[0] == sep {
        if i > 0 {
          SplitPieceChars(s[1..], sep, i - 1);
          assert Split(s, sep)[i] == rest[i - 1];
        }
      } else {
        if i == 0 {
          SplitPieceChars(s[1..], sep, 0);
          assert Split(s, sep)[0] == [s[0]] + rest[0];
        } else {
          SplitPieceChars(s[1..], sep, i);
          assert Split(s, sep)[i] == rest[i];
        }
      }
    }
  }

  /** Reading a dict entry with a fallback: a truthy stored value is returned, and a
      missing or falsy one gives way to `default`. */
  function GetOr(fields: seq<(string, Json)>, key: string, default: Json): (r: Json)
    ensures Lookup(fields, key).Some? && Truthy(Lookup(fields, key).value) ==> r == Lookup(fields, key).value
    ensures Lookup(fields, key).None? || !Truthy(Lookup(fields, key).value) ==> r == default
  {
    match Lookup(fields, key)
    case Some(v) => if Truthy(v) then v else default
    case None => default
  }

  function Strings(xs: seq<string>): (r: seq<Json>)
    ensures |r| == |xs|
    ensures forall i :: 0 <= i < |xs| ==> r[i] == JString(xs[i])
  {
    seq(|xs|, i requires 0 <= i < |xs| => JString(xs[i]))
  }

  /** Lines 83-92 of `summarize_document`: the keywords that `data.get("keywords")`
      yields, with a falsy value replaced by `[]`. */
  function NormalizeKeywords(raw: Option<Json>): (r: seq<Json>)
    ensures raw.Some? && raw.value.JArray? ==> r == raw.value.items
    ensures raw.Some? && raw.value.JString? ==> r == Strings(SplitKeywords(raw.value.s))
    ensures raw.None? || !(raw.value.JArray? || raw.value.JString?) ==> r == []
  {
    var kw := if raw.Some? && Truthy(raw.value) then raw.value else JArray([]);
    if raw.Some? && raw.value == JString("") then
      SplitKeywordsOfEmpty();
      []
    else
      match kw
      case JString(s) => Strings(SplitKeywords(s))
      case JArray(xs) => xs
      case _ => []
  }

  /** The empty string holds no keyword. */
  lemma SplitKeywordsOfEmpty()
    ensures SplitKeywords("") == []
  {
    assert ReplaceChar("", FullWidthComma, ',') == "";
    assert Split("", ',') == [""];
    assert Strip("") == "";
  }

  /** Lines 82-94 of `summarize_document`: normalising the parsed JSON. Anything but
      a dict makes `data.get` raise `AttributeError`. A falsy or missing summary
      becomes `""`; a string of keywords is split; a list of keywords is kept as it
      is; anything else becomes `[]`. */
  function NormalizeParsed(data: Json): (r: Result<Summary>)
    ensures r.Failure? <==> !data.JObject?
    ensures r.Failure? ==> r.error == "'" + TypeName(data) + "' object has no attribute 'get'"
    ensures r.Success? ==> Truthy(r.value.summary) || r.value.summary == JString("")
    ensures r.Success? && (Lookup(data.fields, "summary").None? || !Truthy(Lookup(data.fields, "summary").value)) ==>
      r.value.summary == JString("")
    ensures r.Success? && Lookup(data.fields, "summary").Some? && Truthy(Lookup(data.fields, "summary").value) ==>
      r.value.summary == Lookup(data.fields, "summary").value
    ensures r.Success? && Lookup(data.fields, "keywords").Some? && Lookup(data.fields, "keywords").value.JArray? ==>
      r.value.keywords == Lookup(data.fields, "keywords").value.items
    ensures r.Success? && Lookup(data.fields, "keywords").Some? && Lookup(data.fields, "keywords").value.JString? ==>
      r.value.keywords == Strings(SplitKeywords(Lookup(data.fields, "keywords").value.s))
    ensures r.Success? && (Lookup(data.fields, "keywords").None? || !(Lookup(data.fields, "keywords").value.JArray? || Lookup(data.fields, "keywords").value.JString?)) ==>
      r.value.keywords == []
  {
    match data
    case JObject(fields) => Success(Summary(GetOr(fields, "summary", JString("")), NormalizeKeywords(Lookup(fields, "keywords"))))
    case _ => Failure("'" + TypeName(data) + "' object has no attribute 'get'")
  }


  /** The text `summarize_document` sends to the model: the stripped document, cut
      to its first `MaxInputChars` characters. */
  function DocumentPrefix(text: string): (r: string)
    ensures |r| == Min(MaxInputChars, |Strip(text)|)
    ensures StartsWith(Strip(text), r)
    ensures |Strip(text)| <= MaxInputChars ==> r == Strip(text)
  {
    var cleaned := Strip(text);
    cleaned[..Min(MaxInputChars, |cleaned|)]
  }

  /** `summarize_document(text)`. A blank document gives an empty summary without a
      model call; otherwise the model sees only `DocumentPrefix(text)`, an answer
      that is not JSON becomes the summary itself with no keywords, and a JSON answer
      is normalised. A failing model call raises. */
  function SummarizeDocument(text: string, svc: Services): (r: Result<Summary>)
    ensures AllSpace(text) ==> r == Success(Summary(JString(""), []))
    ensures !AllSpace(text) && svc.complete(DocumentPrefix(text)).Failure? ==>
      r == Failure(svc.complete(DocumentPrefix(text)).error)
    ensures !AllSpace(text) && svc.complete(DocumentPrefix(text)).Success? ==>
      var output := Strip(svc.complete(DocumentPrefix(text)).value);
      r == (match svc.decode(output)
            case None => Success(Summary(JString(output), []))
            case Some(data) => NormalizeParsed(data))
  {
    var cleaned := Strip(text);
    if cleaned == [] then Success(Summary(JString(""), []))
    else
      match svc.complete(DocumentPrefix(text))
      case Failure(e) => Failure(e)
      case Success(content) =>
        var output := Strip(content);
        match svc.decode(output)
        case None => Success(Summary(JString(output), []))
        case Some(data) => NormalizeParsed(data)
  }

  /** Two documents whose stripped texts agree on their first `MaxInputChars`
      characters get the same summary: nothing past the prefix reaches the model. */
  lemma SummaryDependsOnPrefixOnly(t1: string, t2: string, svc: Services)
    requires !AllSpace(t1) && !AllSpace(t2)
    requires DocumentPrefix(t1) == DocumentPrefix(t2)
    ensures SummarizeDocument(t1, svc) == SummarizeDocument(t2, svc)
  {
  }

  /** `chat_with_llm(question, context)`: the model's answer, stripped. */
  function ChatWithLlm(question: string, context: string, svc: Services): (r: Result<string>)
    ensures r.Success? <==> svc.chat(question, context).Success?
    ensures r.Success? ==> r.value == Strip(svc.chat(question, context).value)
  {
    match svc.chat(question, context)
    case Success(answer) => Success(Strip(answer))
    case Failure(e) => Failure(e)
  }
}

=== FILE: scanner.dfy ===
/** `app/services/scanner.py`: the filename filter of `_collect_files` and the job
    state machine of `run_scan_folder`. Every file attempt is reduced to a
    `FileOutcome`, and the loop over the files becomes a fold over those outcomes. */
module Scanner {
  import opened Common
  import opened Text
  import opened Json
  import opened Schemas
  import opened Env
  import opened Dicts
  import opened Llm

  /** The extensions a scan indexes (`SUPPORTED_EXTENSIONS`). */
  const SupportedExtensions: set<string> := {".txt", ".md", ".markdown"}

  /** The suffixes a scan skips whatever their extension (`IGNORED_EXTENSIONS`). */
  const IgnoredExtensions: set<string> := {".excalidraw.md", ".excalidraw"}

  // ---------------------------------------------------------------------------
  // _collect_files
  // ---------------------------------------------------------------------------

  /** The lower-cased name ends with one of the ignored suffixes. */
  predicate Ignored(fname: string)
  {
    exists ext :: ext in IgnoredExtensions && EndsWith(Lower(fname), ext)
  }

  /** The filter of `_collect_files`: a name with an ignored suffix is skipped first;
      any other name is kept when its lower-cased `splitext` extension is supported. */
  predicate Included(fname: string)
  {
    !Ignored(fname) && Lower(Extension(fname)) in SupportedExtensions
  }

  /** Some character before position `m` is not a dot. */
  ghost predicate NonDotBefore(s: string, m: int)
  {
    exists k :: 0 <= k < m && k < |s| && s[k] != '.'
  }

  /** The forward half of `ExtensionIs`: an extension equal to `ext` once lowered
      is a suffix of the lowered name, with something other than dots before it. */
  lemma ExtensionIsSuffix(fname: string, ext: string)
    requires '/' !in fname
    requires Lower(Extension(fname)) == ext && |ext| > 0
    ensures EndsWith(Lower(fname), ext) && NonDotBefore(fname, |fname| - |ext|)
  {
    var r := Extension(fname);
    var sepIndex := LastIndexOf(fname, '/');
    var dotIndex := LastIndexOf(fname, '.');
    assert sepIndex == -1;
    var m := |fname| - |r|;
    assert r == fname[m..];
    LowerSuffix(fname, m);
    assert r != [] && dotIndex > sepIndex;
    assert fname[dotIndex..] == r;
    assert m == dotIndex;
  }

  /** The backward half of `ExtensionIs`. */
  lemma SuffixIsExtension(fname: string, ext: string)
    requires '/' !in fname
    requires |ext| > 0 && ext[0] == '.' && '.' !in ext[1..]
    requires EndsWith(Lower(fname), ext) && NonDotBefore(fname, |fname| - |ext|)
    ensures Lower(Extension(fname)) == ext
  {
    var sepIndex := LastIndexOf(fname, '/');
    var dotIndex := LastIndexOf(fname, '.');
    assert sepIndex == -1;
    var m := |fname| - |ext|;
    LowerSuffix(fname, m);
    assert Lower(fname[m..]) == ext;
    assert fname[m] == '.' by {
      assert LowerChar(fname[m]) == Lower(fname[m..])[0];
    }
    forall i | m < i < |fname|
      ensures fname[i] != '.'
    {
      assert LowerChar(fname[i]) == ext[i - m];
      assert ext[i - m] in ext[1..];
    }
    LastIndexOfAt(fname, '.', m);
    var k :| 0 <= k < m && k < |fname| && fname[k] != '.';
    assert sepIndex + 1 <= k < dotIndex && fname[k] != '.';
    assert Extension(fname) == fname[m..];
  }

  /** For a bare file name and an extension of one leading dot, the lower-cased
      `splitext` extension is `ext` exactly when the lower-cased name ends with `ext`
      and something other than dots comes before it. */
  lemma ExtensionIs(fname: string, ext: string)
    requires '/' !in fname
    requires |ext| > 0 && ext[0] == '.' && '.' !in ext[1..]
    ensures Lower(Extension(fname)) == ext <==>
      EndsWith(Lower(fname), ext) && NonDotBefore(fname, |fname| - |ext|)
  {
    if Lower(Extension(fname)) == ext {
      ExtensionIsSuffix(fname, ext);
    }
    if EndsWith(Lower(fname), ext) && NonDotBefore(fname, |fname| - |ext|) {
      SuffixIsExtension(fname, ext);
    }
  }

  /** Each supported extension is one dot followed by no other dot. */
  lemma SupportedShape(ext: string)
    requires ext in SupportedExtensions
    ensures |ext| > 0 && ext[0] == '.' && '.' !in ext[1..]
  {
    assert ".txt"[1..] == "txt" && ".md"[1..] == "md" && ".markdown"[1..] == "markdown";
  }

  /** The filter, stated through suffixes only: a bare file name is collected
      exactly when it has no ignored suffix and its lower-cased name ends with a
      supported extension preceded by something other than dots. */
  lemma IncludedIffSuffix(fname: string)
    requires '/' !in fname
    ensures Included(fname) <==>
      !Ignored(fname) &&
      exists ext :: ext in SupportedExtensions && EndsWith(Lower(fname), ext) && NonDotBefore(fname, |fname| - |ext|)
  {
    var e := Lower(Extension(fname));
    if e in SupportedExtensions {
      SupportedShape(e);
      ExtensionIs(fname, e);
    }
    if exists ext :: ext in SupportedExtensions && EndsWith(Lower(fname), ext) && NonDotBefore(fname, |fname| - |ext|) {
      var ext :| ext in SupportedExtensions && EndsWith(Lower(fname), ext) && NonDotBefore(fname, |fname| - |ext|);
      SupportedShape(ext);
      ExtensionIs(fname, ext);
    }
  }

  /** `x.Excalidraw.MD` has the supported extension `.md`, ignoring case. */
  lemma ExcalidrawExtension()
    ensures Lower(Extension("x.Excalidraw.MD")) == ".md"
  {
    var f := "x.Excalidraw.MD";
    LastIndexOfAbsent(f, '/');
    LastIndexOfAt(f, '.', 12);
    assert f[0] != '.';
    assert Extension(f) == ".MD";
  }

  /** `x.Excalidraw.MD` ends with `.excalidraw.md`, ignoring case. */
  lemma ExcalidrawIgnored()
    ensures Ignored("x.Excalidraw.MD")
  {
    var g := Lower("x.Excalidraw.MD");
    assert g[1..] == ".excalidraw.md";
    assert ".excalidraw.md" in IgnoredExtensions;
  }

  /** An ignored suffix wins over a supported extension, whatever its case. */
  lemma ExcalidrawMarkdownSkipped()
    ensures Lower(Extension("x.Excalidraw.MD")) in SupportedExtensions
    ensures !Included("x.Excalidraw.MD")
  {
    ExcalidrawExtension();
    ExcalidrawIgnored();
  }

  /** A hidden file named like an extension has no extension, so it is skipped. */
  lemma HiddenFileSkipped()
    ensures !Included(".md")
  {
    LastIndexOfAbsent(".md", '/');
    LastIndexOfAt(".md", '.', 0);
    assert Extension(".md") == [];
  }

  /** A name with a stem is kept whatever the case of its extension. */
  lemma UpperCaseExtensionKept()
    ensures Included("Notes.MD")
  {
    var f := "Notes.MD";
    LastIndexOfAbsent(f, '/');
    LastIndexOfAt(f, '.', 5);
    assert f[0] != '.';
    assert Extension(f) == ".MD";
    assert Lower(".MD") == ".md";
    var g := Lower(f);
    assert g == "notes.md";
    assert !EndsWith(g, ".excalidraw.md");
    assert !EndsWith(g, ".excalidraw");
  }

  /** `os.path.join(root, name)` for each name, in order. */
  function JoinAll(root: string, names: seq<string>): (r: seq<string>)
    ensures |r| == |names|
  {
    seq(|names|, i requires 0 <= i < |names| => JoinPath(root, names[i]))
  }

  /** The collected paths of one directory, in listing order. */
  function CollectDir(root: string, files: seq<string>): seq<string>
  {
    JoinAll(root, Filter(files, Included))
  }

  /** `_collect_files(base_path)` over what `os.walk` yields. */
  function CollectFiles(walk: seq<WalkDir>): seq<string>
    decreases |walk|
  {
    if walk == [] then [] else CollectDir(walk[0].root, walk[0].files) + CollectFiles(walk[1..])
  }

  /** Whether `p` is the joined path of an included file listed by one directory. */
  ghost predicate CollectedFrom(root: string, files: seq<string>, p: string)
  {
    exists f :: f in files && Included(f) && p == JoinPath(root, f)
  }

  /** One directory contributes exactly the joined paths of its included files. */
  lemma CollectDirMember(root: string, files: seq<string>, p: string)
    ensures p in CollectDir(root, files) <==> CollectedFrom(root, files, p)
  {
    var kept := Filter(files, Included);
    if p in CollectDir(root, files) {
      var i :| 0 <= i < |kept| && JoinAll(root, kept)[i] == p;
      FilterMember(files, Included, kept[i]);
    }
    if CollectedFrom(root, files, p) {
      var f :| f in files && Included(f) && p == JoinPath(root, f);
      FilterMember(files, Included, f);
      var i :| 0 <= i < |kept| && kept[i] == f;
      assert JoinAll(root, kept)[i] == p;
    }
  }

  /** Whether some directory of the walk lists an included file joined to `p`. */
  ghost predicate CollectedFromWalk(walk: seq<WalkDir>, p: string)
  {
    exists i :: 0 <= i < |walk| && CollectedFrom(walk[i].root, walk[i].files, p)
  }

  /** The walk's result is the concatenation of what each directory contributes. */
  lemma {:induction false} CollectFilesIn(walk: seq<WalkDir>, p: string)
    ensures p in CollectFiles(walk) <==> exists i :: 0 <= i < |walk| && p in CollectDir(walk[i].root, walk[i].files)
    decreases |walk|
  {
    if walk != [] {
      CollectFilesIn(walk[1..], p);
      if exists i :: 0 <= i < |walk| && p in CollectDir(walk[i].root, walk[i].files) {
        var i :| 0 <= i < |walk| && p in CollectDir(walk[i].root, walk[i].files);
        if i > 0 {
          assert walk[1..][i - 1] == walk[i];
        }
      }
      if exists i :: 0 <= i < |walk[1..]| && p in CollectDir(walk[1..][i].root, walk[1..][i].files) {
        var i :| 0 <= i < |walk[1..]| && p in CollectDir(walk[1..][i].root, walk[1..][i].files);
        assert walk[i + 1] == walk[1..][i];
      }
    }
  }

  /** A path is collected exactly when some directory of the walk lists an included
      file under that joined name. */
  lemma CollectFilesMember(walk: seq<WalkDir>, p: string)
    ensures p in CollectFiles(walk) <==> CollectedFromWalk(walk, p)
  {
    CollectFilesIn(walk, p);
    forall i | 0 <= i < |walk|
      ensures p in CollectDir(walk[i].root, walk[i].files) <==> CollectedFrom(walk[i].root, walk[i].files, p)
    {
      CollectDirMember(walk[i].root, walk[i].files, p);
    }
  }

  // ---------------------------------------------------------------------------
  // One file attempt
  // ---------------------------------------------------------------------------

  /** How one attempt at a file ended: skipped (nothing to index), failed with the
      text of the exception, or indexed by one `collection.add` call. */
  datatype FileOutcome = Skipped | Failed(reason: string) | Indexed(batch: Batch)

  /** The ids of one file's chunks: the document id, "::chunk_" and the chunk's
      index. */
  function ChunkIds(docId: string, n: nat): (r: seq<string>)
    ensures |r| == n
    ensures forall i :: 0 <= i < n ==> r[i] == docId + "::chunk_" + NatToString(i)
  {
    seq(n, i requires 0 <= i < n => docId + "::chunk_" + NatToString(i))
  }

  /** No two chunks of a document share an id. */
  lemma ChunkIdsDistinct(docId: string, n: nat)
    ensures Distinct(ChunkIds(docId, n))
  {
    var r := ChunkIds(docId, n);
    forall i, j | 0 <= i < j < n
      ensures r[i] != r[j]
    {
      var p := docId + "::chunk";
      assert r[i] == p + ['_'] + NatToString(i);
      assert r[j] == p + ['_'] + NatToString(j);
      if r[i] == r[j] {
        SuffixedNumberInjective(p, i, p, j, '_');
      }
    }
  }

  /** The metadata dict of chunk `i` of a scanned file. */
  function ChunkMetadata(folder: FolderConfig, rel: string, fileName: string, summary: Json, keywords: string, mtime: FileTime, i: nat): Metadata
  {
    [ ("folder_id", JString(folder.id)),
      ("folder_name", JString(folder.name)),
      ("file_path", JString(rel)),
      ("file_name", JString(fileName)),
      ("chunk_index", JInt(i)),
      ("doc_summary", summary),
      ("doc_keywords", JString(keywords)),
      ("file_modified_at", JString(mtime.iso)),
      ("year", JInt(mtime.year)),
      ("month", JInt(mtime.month)) ]
  }

  /** Reading `folder_id` back gives its folder id. */
  lemma MetadataFolderId(folder: FolderConfig, rel: string, fileName: string, summary: Json, keywords: string, mtime: FileTime, i: nat)
    ensures Lookup(ChunkMetadata(folder, rel, fileName, summary, keywords, mtime, i), "folder_id") == Some(JString(folder.id))
  {
    LookupAt(ChunkMetadata(folder, rel, fileName, summary, keywords, mtime, i), "folder_id", 0);
  }

  /** Reading `folder_name` back gives its folder's name. */
  lemma MetadataFolderName(folder: FolderConfig, rel: string, fileName: string, summary: Json, keywords: string, mtime: FileTime, i: nat)
    ensures Lookup(ChunkMetadata(folder, rel, fileName, summary, keywords, mtime, i), "folder_name") == Some(JString(folder.name))
  {
    LookupAt(ChunkMetadata(folder, rel, fileName, summary, keywords, mtime, i), "folder_name", 1);
  }

  /** Reading `file_path` back gives its path relative to the folder. */
  lemma MetadataFilePath(folder: FolderConfig, rel: string, fileName: string, summary: Json, keywords: string, mtime: FileTime, i: nat)
    ensures Lookup(ChunkMetadata(folder, rel, fileName, summary, keywords, mtime, i), "file_path") == Some(JString(rel))
  {
    LookupAt(ChunkMetadata(folder, rel, fileName, summary, keywords, mtime, i), "file_path", 2);
  }

  /** Reading `file_name` back gives its file name. */
  lemma MetadataFileName(folder: FolderConfig, rel: string, fileName: string, summary: Json, keywords: string, mtime: FileTime, i: nat)
    ensures Lookup(ChunkMetadata(folder, rel, fileName, summary, keywords, mtime, i), "file_name") == Some(JString(fileName))
  {
    LookupAt(ChunkMetadata(folder, rel, fileName, summary, keywords, mtime, i), "file_name", 3);
  }

  /** Reading `chunk_index` back gives its own index. */
  lemma MetadataChunkIndex(folder: FolderConfig, rel: string, fileName: string, summary: Json, keywords: string, mtime: FileTime, i: nat)
    ensures Lookup(ChunkMetadata(folder, rel, fileName, summary, keywords, mtime, i), "chunk_index") == Some(JInt(i))
  {
    LookupAt(ChunkMetadata(folder, rel, fileName, summary, keywords, mtime, i), "chunk_index", 4);
  }

  /** Reading `doc_summary` back gives the file's summary. */
  lemma MetadataSummary(folder: FolderConfig, rel: string, fileName: string, summary: Json, keywords: string, mtime: FileTime, i: nat)
    ensures Lookup(ChunkMetadata(folder, rel, fileName, summary, keywords, mtime, i), "doc_summary") == Some(summary)
  {
    LookupAt(ChunkMetadata(folder, rel, fileName, summary, keywords, mtime, i), "doc_summary", 5);
  }

  /** Reading `doc_keywords` back gives the file's keyword string. */
  lemma MetadataKeywords(folder: FolderConfig, rel: string, fileName: string, summary: Json, keywords: string, mtime: FileTime, i: nat)
    ensures Lookup(ChunkMetadata(folder, rel, fileName, summary, keywords, mtime, i), "doc_keywords") == Some(JString(keywords))
  {
    LookupAt(ChunkMetadata(folder, rel, fileName, summary, keywords, mtime, i), "doc_keywords", 6);
  }

  /** Reading `file_modified_at` back gives the file's modification time in ISO form. */
  lemma MetadataModifiedAt(folder: FolderConfig, rel: string, fileName: string, summary: Json, keywords: string, mtime: FileTime, i: nat)
    ensures Lookup(ChunkMetadata(folder, rel, fileName, summary, keywords, mtime, i), "file_modified_at") == Some(JString(mtime.iso))
  {
    LookupAt(ChunkMetadata(folder, rel, fileName, summary, keywords, mtime, i), "file_modified_at", 7);
  }

  /** Reading `year` back gives the year of that time. */
  lemma MetadataYear(folder: FolderConfig, rel: string, fileName: string, summary: Json, keywords: string, mtime: FileTime, i: nat)
    ensures Lookup(ChunkMetadata(folder, rel, fileName, summary, keywords, mtime, i), "year") == Some(JInt(mtime.year))
  {
    LookupAt(ChunkMetadata(folder, rel, fileName, summary, keywords, mtime, i), "year", 8);
  }

  /** Reading `month` back gives the month of that time. */
  lemma MetadataMonth(folder: FolderConfig, rel: string, fileName: string, summary: Json, keywords: string, mtime: FileTime, i: nat)
    ensures Lookup(ChunkMetadata(folder, rel, fileName, summary, keywords, mtime, i), "month") == Some(JInt(mtime.month))
  {
  }

  /** The entries every chunk of one file shares: its folder, its path and name, its
      summary and keyword string, and its modification time. */
  predicate FileFields(m: Metadata, folder: FolderConfig, rel: string, fileName: string, summary: Json, keywords: string, mtime: FileTime)
  {
    && Lookup(m, "folder_id") == Some(JString(folder.id))
    && Lookup(m, "folder_name") == Some(JString(folder.name))
    && Lookup(m, "file_path") == Some(JString(rel))
    && Lookup(m, "file_name") == Some(JString(fileName))
    && Lookup(m, "doc_summary") == Some(summary)
    && Lookup(m, "doc_keywords") == Some(JString(keywords))
    && Lookup(m, "file_modified_at") == Some(JString(mtime.iso))
    && Lookup(m, "year") == Some(JInt(mtime.year))
    && Lookup(m, "month") == Some(JInt(mtime.month))
  }

  lemma MetadataFileFields(folder: FolderConfig, rel: string, fileName: string, summary: Json, keywords: string, mtime: FileTime, i: nat)
    ensures FileFields(ChunkMetadata(folder, rel, fileName, summary, keywords, mtime, i), folder, rel, fileName, summary, keywords, mtime)
  {
    MetadataFolderId(folder, rel, fileName, summary, keywords, mtime, i);
    MetadataFolderName(folder, rel, fileName, summary, keywords, mtime, i);
    MetadataFilePath(folder, rel, fileName, summary, keywords, mtime, i);
    MetadataFileName(folder, rel, fileName, summary, keywords, mtime, i);
    MetadataSummary(folder, rel, fileName, summary, keywords, mtime, i);
    MetadataKeywords(folder, rel, fileName, summary, keywords, mtime, i);
    MetadataModifiedAt(folder, rel, fileName, summary, keywords, mtime, i);
    MetadataYear(folder, rel, fileName, summary, keywords, mtime, i);
    MetadataMonth(folder, rel, fileName, summary, keywords, mtime, i);
  }

  /** One metadata dict per chunk: each carries its own index, and all of them carry
      the same file-level entries. */
  function ChunkMetadatas(folder: FolderConfig, rel: string, fileName: string, summary: Json, keywords: string, mtime: FileTime, n: nat): (r: seq<Metadata>)
    ensures |r| == n
    ensures forall i :: 0 <= i < n ==> Lookup(r[i], "chunk_index") == Some(JInt(i))
    ensures forall i :: 0 <= i < n ==> FileFields(r[i], folder, rel, fileName, summary, keywords, mtime)
  {
    var r := seq(n, i requires 0 <= i < n => ChunkMetadata(folder, rel, fileName, summary, keywords, mtime, i));
    forall i | 0 <= i < n
      ensures Lookup(r[i], "chunk_index") == Some(JInt(i))
      ensures FileFields(r[i], folder, rel, fileName, summary, keywords, mtime)
    {
      MetadataChunkIndex(folder, rel, fileName, summary, keywords, mtime, i);
      MetadataFileFields(folder, rel, fileName, summary, keywords, mtime, i);
    }
    r
  }

  /** A scanned file's document id: the folder id and the relative path, joined by a
      colon. */
  function DocId(folder: FolderConfig, rel: string): string
  {
    folder.id + ":" + rel
  }

  /** The body of the `try` for one file: read it, skip it when blank, summarise it,
      encode the keywords, stat it, chunk it, embed the chunks and add them. The
      first step that raises decides the outcome. */
  function AttemptFile(folder: FolderConfig, base: string, path: string, fs: FileSystem, svc: Services): (r: FileOutcome)
    ensures fs.read(path).Failure? ==> r == Failed(fs.read(path).error)
    ensures fs.read(path).Success? && AllSpace(fs.read(path).value) ==> r == Skipped
    ensures fs.read(path).Success? && !AllSpace(fs.read(path).value) ==>
      var summary := SummarizeDocument(fs.read(path).value, svc);
      && (summary.Failure? ==> r == Failed(summary.error))
      && (summary.Success? && fs.stat(path).Failure? ==> r == Failed(fs.stat(path).error))
      && (summary.Success? && fs.stat(path).Success? ==> r != Skipped)
    ensures fs.read(path).Success? && !AllSpace(fs.read(path).value) ==>
      var text := fs.read(path).value;
      var summary := SummarizeDocument(text, svc);
      var rel := fs.relPath(path, base);
      var chunks := ChunkTextDefault(text);
      summary.Success? && fs.stat(path).Success? ==>
        r == EmbedAndAdd(chunks, ChunkIds(DocId(folder, rel), |chunks|),
                         ChunkMetadatas(folder, rel, Basename(rel), summary.value.summary,
                                        Dumps(JArray(summary.value.keywords)), fs.stat(path).value, |chunks|), svc)
    ensures r.Indexed? ==> r.batch.documents == ChunkTextDefault(fs.read(path).value)
  {
    match fs.read(path)
    case Failure(e) => Failed(e)
    case Success(text) =>
      if Strip(text) == [] then Skipped
      else
        var rel := fs.relPath(path, base);
        match SummarizeDocument(text, svc)
        case Failure(e) => Failed(e)
        case Success(summary) =>
          var keywords := Dumps(JArray(summary.keywords));
          match fs.stat(path)
          case Failure(e) => Failed(e)
          case Success(mtime) =>
            var chunks := ChunkTextDefault(text);
            if chunks == [] then Skipped
            else
              EmbedAndAdd(chunks, ChunkIds(DocId(folder, rel), |chunks|),
                          ChunkMetadatas(folder, rel, Basename(rel), summary.summary, keywords, mtime, |chunks|), svc)
  }

  /** Lines 67 and 86-91: embed the chunks and add them with their ids and
      metadatas. This stage never skips: a failing embedding or add call fails the
      file with its error, and otherwise the file is indexed with exactly what it
      was given. */
  function EmbedAndAdd(chunks: seq<string>, ids: seq<string>, metadatas: seq<Metadata>, svc: Services): (r: FileOutcome)
    ensures r != Skipped
    ensures EmbedTexts(chunks, svc).Failure? ==> r == Failed(EmbedTexts(chunks, svc).error)
    ensures EmbedTexts(chunks, svc).Success? ==>
      var b := Batch(ids, chunks, EmbedTexts(chunks, svc).value, metadatas);
      && (svc.add(b).Some? ==> r == Failed(svc.add(b).value))
      && (svc.add(b).None? ==> r == Indexed(b))
    ensures r.Indexed? ==> r.batch.ids == ids && r.batch.documents == chunks && r.batch.metadatas == metadatas
    ensures r.Indexed? ==> EmbedTexts(chunks, svc) == Success(r.batch.embeddings) && svc.add(r.batch).None?
  {
    match EmbedTexts(chunks, svc)
    case Failure(e) => Failed(e)
    case Success(vectors) =>
      var batch := Batch(ids, chunks, vectors, metadatas);
      match svc.add(batch)
      case Some(e) => Failed(e)
      case None => Indexed(batch)
  }

  /** A file is skipped exactly when it reads as blank: a file that is not blank
      always has chunks, so the skip for a file without chunks never happens. */
  lemma SkippedIffBlank(folder: FolderConfig, base: string, path: string, fs: FileSystem, svc: Services)
    ensures AttemptFile(folder, base, path, fs, svc) == Skipped <==>
      fs.read(path).Success? && AllSpace(fs.read(path).value)
  {
    if fs.read(path).Success? {
      var text := fs.read(path).value;
      assert Strip(text) == [] <==> ChunkTextDefault(text) == [];
    }
  }

  /** An indexed file contributes one record per chunk of its text: the documents
      are the chunks, which spell the stripped text, the ids are distinct and carry
      the chunk index, and every record shares the file's summary and keywords. */
  lemma IndexedBatch(folder: FolderConfig, base: string, path: string, fs: FileSystem, svc: Services)
    requires AttemptFile(folder, base, path, fs, svc).Indexed?
    ensures var b := AttemptFile(folder, base, path, fs, svc).batch;
      var text := fs.read(path).value;
      var rel := fs.relPath(path, base);
      var summary := SummarizeDocument(text, svc).value;
      && fs.read(path).Success? && SummarizeDocument(text, svc).Success?
      && b.documents == ChunkTextDefault(text)
      && Concat(b.documents) == Strip(text)
      && |b.ids| == |b.documents| == |b.metadatas|
      && Distinct(b.ids)
      && (forall i :: 0 <= i < |b.ids| ==> b.ids[i] == folder.id + ":" + rel + "::chunk_" + NatToString(i))
      && fs.stat(path).Success?
      && (forall i :: 0 <= i < |b.metadatas| ==> Lookup(b.metadatas[i], "chunk_index") == Some(JInt(i)))
      && (forall i :: 0 <= i < |b.metadatas| ==>
            FileFields(b.metadatas[i], folder, rel, Basename(rel), summary.summary,
                       Dumps(JArray(summary.keywords)), fs.stat(path).value))
  {
    var text := fs.read(path).value;
    var rel := fs.relPath(path, base);
    ChunkTextDefaultSegments(text);
    ChunkIdsDistinct(DocId(folder, rel), |ChunkTextDefault(text)|);
  }

  // ---------------------------------------------------------------------------
  // The loop over the files
  // ---------------------------------------------------------------------------

  /** The `except`/`finally` bookkeeping after attempt number `idx` (counting from
      1) at `path`. */
  function RecordAttempt(job: ScanJob, idx: nat, path: string, o: FileOutcome): (r: ScanJob)
    ensures r.processedFiles == idx
    ensures o.Failed? ==> r.errorMessage == Some(path + ": " + o.reason)
    ensures !o.Failed? ==> r.errorMessage == job.errorMessage
    ensures r == job.(processedFiles := idx, errorMessage := r.errorMessage)
  {
    var j := if o.Failed? then job.(errorMessage := Some(path + ": " + o.reason)) else job;
    j.(processedFiles := idx)
  }

  /** The records one outcome adds to the collection. */
  function Added(o: FileOutcome): seq<Batch>
  {
    if o.Indexed? then [o.batch] else []
  }

  /** The job after the first `k` attempts, the snapshot of the job after each of
      them, and the batches added so far. */
  datatype Progress = Progress(job: ScanJob, snapshots: seq<ScanJob>, added: seq<Batch>)

  function Fold(job0: ScanJob, paths: seq<string>, outcomes: seq<FileOutcome>, k: nat): Progress
    requires |paths| == |outcomes| && k <= |paths|
    decreases k
  {
    if k == 0 then Progress(job0, [], [])
    else
      var prev := Fold(job0, paths, outcomes, k - 1);
      var job := RecordAttempt(prev.job, k, paths[k - 1], outcomes[k - 1]);
      Progress(job, prev.snapshots + [job], prev.added + Added(outcomes[k - 1]))
  }

  /** After `k` attempts, snapshot `i` has counted `i + 1` files and the job has
      counted `k`; only the counter and the error message ever change. */
  lemma {:induction false} FoldCounts(job0: ScanJob, paths: seq<string>, outcomes: seq<FileOutcome>, k: nat)
    requires |paths| == |outcomes| && k <= |paths|
    ensures var p := Fold(job0, paths, outcomes, k);
      && |p.snapshots| == k
      && (k > 0 ==> p.job == p.snapshots[k - 1])
      && (forall i :: 0 <= i < k ==> p.snapshots[i].processedFiles == i + 1)
      && (forall i :: 0 <= i < k ==>
            p.snapshots[i] == job0.(processedFiles := i + 1, errorMessage := p.snapshots[i].errorMessage))
      && p.job == job0.(processedFiles := p.job.processedFiles, errorMessage := p.job.errorMessage)
      && (k > 0 ==> p.job.processedFiles == k)
    decreases k
  {
    if k > 0 {
      FoldCounts(job0, paths, outcomes, k - 1);
    }
  }

  /** Last error wins: after `k` attempts the message names the last failed file
      among them and its exception, and is the initial one when none failed. */
  lemma {:induction false} FoldLastError(job0: ScanJob, paths: seq<string>, outcomes: seq<FileOutcome>, k: nat)
    requires |paths| == |outcomes| && k <= |paths|
    ensures (forall i :: 0 <= i < k ==> !outcomes[i].Failed?) ==>
      Fold(job0, paths, outcomes, k).job.errorMessage == job0.errorMessage
    ensures forall i :: 0 <= i < k && outcomes[i].Failed? && (forall j :: i < j < k ==> !outcomes[j].Failed?) ==>
      Fold(job0, paths, outcomes, k).job.errorMessage == Some(paths[i] + ": " + outcomes[i].reason)
    decreases k
  {
    if k > 0 {
      FoldLastError(job0, paths, outcomes, k - 1);
    }
  }

  /** The batches of the indexed outcomes, first to last. */
  function IndexedBatches(outcomes: seq<FileOutcome>): (r: seq<Batch>)
    ensures |r| <= |outcomes|
    decreases |outcomes|
  {
    if outcomes == [] then [] else Added(outcomes[0]) + IndexedBatches(outcomes[1..])
  }

  /** Appending one outcome appends its batch, if any, at the end. */
  lemma {:induction false} IndexedBatchesAppend(outcomes: seq<FileOutcome>, o: FileOutcome)
    ensures IndexedBatches(outcomes + [o]) == IndexedBatches(outcomes) + Added(o)
    decreases |outcomes|
  {
    if outcomes == [] {
      assert [] + [o] == [o];
      assert [o][1..] == [];
    } else {
      assert (outcomes + [o])[1..] == outcomes[1..] + [o];
      IndexedBatchesAppend(outcomes[1..], o);
    }
  }

  /** The batches added are those of the indexed files, in file order. */
  lemma {:induction false} FoldAddedInOrder(job0: ScanJob, paths: seq<string>, outcomes: seq<FileOutcome>, k: nat)
    requires |paths| == |outcomes| && k <= |paths|
    ensures Fold(job0, paths, outcomes, k).added == IndexedBatches(outcomes[..k])
    decreases k
  {
    if k > 0 {
      FoldAddedInOrder(job0, paths, outcomes, k - 1);
      assert outcomes[..k] == outcomes[..k - 1] + [outcomes[k - 1]];
      IndexedBatchesAppend(outcomes[..k - 1], outcomes[k - 1]);
    }
  }

  /** A batch is added exactly when some file's attempt indexed it. */
  lemma {:induction false} FoldAdded(job0: ScanJob, paths: seq<string>, outcomes: seq<FileOutcome>, k: nat)
    requires |paths| == |outcomes| && k <= |paths|
    ensures forall b :: b in Fold(job0, paths, outcomes, k).added <==>
      exists i :: 0 <= i < k && outcomes[i] == Indexed(b)
    ensures |Fold(job0, paths, outcomes, k).added| <= k
    decreases k
  {
    if k > 0 {
      FoldAdded(job0, paths, outcomes, k - 1);
    }
  }

  // ---------------------------------------------------------------------------
  // run_scan_folder
  // ---------------------------------------------------------------------------

  /** The two dicts of `app/services/folders.py` the scanner works on. */
  datatype Store = Store(folders: Dict<FolderConfig>, jobs: Dict<ScanJob>)

  ghost predicate ValidStore(st: Store)
  {
    Valid(st.folders) && Valid(st.jobs)
  }

  /** The store after a run, every state the job passed through in order, and the
      batches added to the collection. */
  datatype ScanRun = ScanRun(store: Store, trace: seq<ScanJob>, added: seq<Batch>)

  /** The error an early exit records: a fixed Chinese notice that the directory
      does not exist, followed by the path. */
  function MissingDirMessage(path: string): string
  {
    "目录不存在：" + path
  }

  /** The job after an early exit: marked as failed with `message`, at `now`. */
  function Abort(job: ScanJob, message: string, now: Instant): (r: ScanJob)
  {
    job.(status := Error, errorMessage := Some(message), finishedAt := Some(now))
  }

  function Outcomes(folder: FolderConfig, files: seq<string>, fs: FileSystem, svc: Services): (r: seq<FileOutcome>)
    ensures |r| == |files|
    ensures forall i :: 0 <= i < |files| ==> r[i] == AttemptFile(folder, folder.path, files[i], fs, svc)
  {
    seq(|files|, i requires 0 <= i < |files| => AttemptFile(folder, folder.path, files[i], fs, svc))
  }

  /** `run_scan_folder(job_id)`, run to the end without interleaving; `now` is the
      value every `datetime.utcnow()` of the run returns. */
  function RunScanFolder(st: Store, jobId: string, now: Instant, fs: FileSystem, svc: Services): (r: ScanRun)
    requires ValidStore(st)
    ensures ValidStore(r.store)
  {
    match Get(st.jobs, jobId)
    case None => ScanRun(st, [], [])
    case Some(job) =>
      match Get(st.folders, job.folderId)
      case None =>
        var failed := Abort(job, "FolderConfig not found", now);
        ScanRun(st.(jobs := Put(st.jobs, jobId, failed)), [failed], [])
      case Some(folder) =>
        if !fs.isDir(folder.path) then
          var failed := Abort(job, MissingDirMessage(folder.path), now);
          ScanRun(st.(jobs := Put(st.jobs, jobId, failed)), [failed], [])
        else ScanDirectory(st, jobId, job, folder, now, fs, svc)
  }

  /** Every state the job passes through on the main path: counted, running, one
      snapshot after each file attempt, and completed at `now`. */
  function JobTrace(job: ScanJob, paths: seq<string>, outcomes: seq<FileOutcome>, now: Instant): (t: seq<ScanJob>)
    requires |paths| == |outcomes|
    ensures |t| >= 3
  {
    var counted := job.(totalFiles := |paths|);
    var running := counted.(status := Running);
    var p := Fold(running, paths, outcomes, |paths|);
    [counted, running] + p.snapshots + [p.job.(status := Completed, finishedAt := Some(now))]
  }

  /** The shape of the trace: the total is set first, with the status unchanged;
      then the job is running while attempt `i` leaves the counter at `i`; last it is
      completed at `now`, having counted every file. Nothing but the status, the two
      counters, the error message and the finish time ever changes. */
  lemma JobTraceShape(job: ScanJob, paths: seq<string>, outcomes: seq<FileOutcome>, now: Instant)
    requires |paths| == |outcomes|
    ensures var t := JobTrace(job, paths, outcomes, now);
      && |t| == |paths| + 3
      && t[0] == job.(totalFiles := |paths|)
      && t[1] == job.(totalFiles := |paths|, status := Running)
      && (forall i :: 2 <= i < |t| - 1 ==> t[i].status == Running && t[i].processedFiles == i - 1)
      && (forall i :: 0 <= i < |t| ==>
            t[i] == job.(status := t[i].status, totalFiles := |paths|, processedFiles := t[i].processedFiles,
                         errorMessage := t[i].errorMessage, finishedAt := t[i].finishedAt))
      && (forall i :: 0 <= i < |t| - 1 ==> t[i].finishedAt == job.finishedAt)
      && t[|t| - 1].status == Completed
      && t[|t| - 1].finishedAt == Some(now)
      && t[|t| - 1].processedFiles == (if paths == [] then job.processedFiles else |paths|)
  {
    var counted := job.(totalFiles := |paths|);
    var running := counted.(status := Running);
    var p := Fold(running, paths, outcomes, |paths|);
    FoldCounts(running, paths, outcomes, |paths|);
    var t := JobTrace(job, paths, outcomes, now);
    assert forall i :: 2 <= i < |t| - 1 ==> t[i] == p.snapshots[i - 2];
  }

  /** The main path of `run_scan_folder`: count the collected files, mark the job
      running, attempt every file in order, then mark the job completed and stamp the
      folder. */
  function ScanDirectory(st: Store, jobId: string, job: ScanJob, folder: FolderConfig, now: Instant,
                         fs: FileSystem, svc: Services): (r: ScanRun)
    requires ValidStore(st)
    ensures ValidStore(r.store)
  {
    var files := CollectFiles(fs.walk(folder.path));
    var outcomes := Outcomes(folder, files, fs, svc);
    var trace := JobTrace(job, files, outcomes, now);
    var done := trace[|trace| - 1];
    var scanned := folder.(lastScanAt := done.finishedAt, lastScanStatus := Some(StatusName(done.status)),
                           lastScanJobId := Some(done.id));
    var added := Fold(job.(totalFiles := |files|, status := Running), files, outcomes, |files|).added;
    ScanRun(Store(Put(st.folders, job.folderId, scanned), Put(st.jobs, jobId, done)), trace, added)
  }

  /** An unknown job id leaves everything as it was. */
  lemma UnknownJobNoChange(st: Store, jobId: string, now: Instant, fs: FileSystem, svc: Services)
    requires ValidStore(st) && Get(st.jobs, jobId).None?
    ensures RunScanFolder(st, jobId, now, fs, svc) == ScanRun(st, [], [])
  {
  }

  /** A job whose folder is unregistered, or whose folder is not a directory, ends
      in `error` with the reason and the finish time; its counters, the folders and
      every other job stay as they were, and nothing is indexed. */
  lemma EarlyExit(st: Store, jobId: string, now: Instant, fs: FileSystem, svc: Services)
    requires ValidStore(st) && Get(st.jobs, jobId).Some?
    requires var job := Get(st.jobs, jobId).value;
      Get(st.folders, job.folderId).None? || !fs.isDir(Get(st.folders, job.folderId).value.path)
    ensures var job := Get(st.jobs, jobId).value;
      var r := RunScanFolder(st, jobId, now, fs, svc);
      var message := if Get(st.folders, job.folderId).None? then "FolderConfig not found"
                     else MissingDirMessage(Get(st.folders, job.folderId).value.path);
      && Get(r.store.jobs, jobId) == Some(job.(status := Error, errorMessage := Some(message), finishedAt := Some(now)))
      && (forall id :: id != jobId ==> Get(r.store.jobs, id) == Get(st.jobs, id))
      && r.store.folders == st.folders
      && r.added == []
      && |r.trace| == 1
  {
  }

  /** A job on a directory runs to completion: it counts every collected file, its
      counter ends equal to the total, its status is `completed`, and the folder
      records the finish time, the status and the job id; no other job or folder
      changes. */
  lemma CompletedRun(st: Store, jobId: string, now: Instant, fs: FileSystem, svc: Services)
    requires ValidStore(st) && Get(st.jobs, jobId).Some?
    requires var job := Get(st.jobs, jobId).value;
      Get(st.folders, job.folderId).Some? && fs.isDir(Get(st.folders, job.folderId).value.path)
    ensures var job := Get(st.jobs, jobId).value;
      var folder := Get(st.folders, job.folderId).value;
      var total := |CollectFiles(fs.walk(folder.path))|;
      var r := RunScanFolder(st, jobId, now, fs, svc);
      && Get(r.store.jobs, jobId).Some?
      && var done := Get(r.store.jobs, jobId).value;
      && done.status == Completed
      && done.totalFiles == total
      && done.processedFiles == (if total == 0 then job.processedFiles else total)
      && done.finishedAt == Some(now)
      && done == job.(status := Completed, totalFiles := total, processedFiles := done.processedFiles,
                      errorMessage := done.errorMessage, finishedAt := Some(now))
      && Get(r.store.folders, job.folderId) ==
           Some(folder.(lastScanAt := Some(now), lastScanStatus := Some("completed"), lastScanJobId := Some(job.id)))
      && (forall id :: id != jobId ==> Get(r.store.jobs, id) == Get(st.jobs, id))
      && (forall id :: id != job.folderId ==> Get(r.store.folders, id) == Get(st.folders, id))
  {
    var job := Get(st.jobs, jobId).value;
    var folder := Get(st.folders, job.folderId).value;
    var files := CollectFiles(fs.walk(folder.path));
    JobTraceShape(job, files, Outcomes(folder, files, fs, svc), now);
  }

  /** The counter goes up by one per attempt through the whole run: in the trace of
      a completed run, the states after `counted` and `running` show 1, 2, ...,
      total files processed, each at most the total, and the total never changes. */
  lemma ProgressMonotone(st: Store, jobId: string, now: Instant, fs: FileSystem, svc: Services)
    requires ValidStore(st) && Get(st.jobs, jobId).Some?
    requires var job := Get(st.jobs, jobId).value;
      Get(st.folders, job.folderId).Some? && fs.isDir(Get(st.folders, job.folderId).value.path)
    ensures var r := RunScanFolder(st, jobId, now, fs, svc);
      var total := r.trace[0].totalFiles;
      && |r.trace| == total + 3
      && (forall i :: 2 <= i < total + 2 ==> r.trace[i].processedFiles == i - 1 <= total)
      && (forall i :: 0 <= i < |r.trace| ==> r.trace[i].totalFiles == total)
  {
    var job := Get(st.jobs, jobId).value;
    var folder := Get(st.folders, job.folderId).value;
    var files := CollectFiles(fs.walk(folder.path));
    JobTraceShape(job, files, Outcomes(folder, files, fs, svc), now);
  }

  /** The status moves only forward: it stays, or goes from `pending` to `running`
      or `error`, or from `running` to `completed`. */
  predicate Step(a: JobStatus, b: JobStatus)
  {
    a == b || (a == Pending && (b == Running || b == Error)) || (a == Running && b == Completed)
  }

  /** Every state of a directory scan follows the one before it by a `Step`, from
      `pending` through `running` to `completed`. */
  lemma JobTraceSteps(job: ScanJob, paths: seq<string>, outcomes: seq<FileOutcome>, now: Instant)
    requires |paths| == |outcomes| && job.status == Pending
    ensures var states := [job] + JobTrace(job, paths, outcomes, now);
      && (forall i :: 0 < i < |states| ==> Step(states[i - 1].status, states[i].status))
      && states[|states| - 1].status == Completed
  {
    JobTraceShape(job, paths, outcomes, now);
  }

  /** Starting from a `pending` job, every state of the run follows the one before
      it by a `Step`, and the last one is `error` or `completed`. */
  lemma StatusTransitions(st: Store, jobId: string, now: Instant, fs: FileSystem, svc: Services)
    requires ValidStore(st) && Get(st.jobs, jobId).Some?
    requires Get(st.jobs, jobId).value.status == Pending
    ensures var r := RunScanFolder(st, jobId, now, fs, svc);
      var states := [Get(st.jobs, jobId).value] + r.trace;
      && (forall i :: 0 < i < |states| ==> Step(states[i - 1].status, states[i].status))
      && (states[|states| - 1].status == Error || states[|states| - 1].status == Completed)
  {
    var job := Get(st.jobs, jobId).value;
    if Get(st.folders, job.folderId).Some? && fs.isDir(Get(st.folders, job.folderId).value.path) {
      var folder := Get(st.folders, job.folderId).value;
      var files := CollectFiles(fs.walk(folder.path));
      JobTraceSteps(job, files, Outcomes(folder, files, fs, svc), now);
    }
  }

  /** The error message of a completed run is that of the last file that failed,
      and stays the job's own when none failed; the run completes either way. */
  lemma CompletedLastError(st: Store, jobId: string, now: Instant, fs: FileSystem, svc: Services)
    requires ValidStore(st) && Get(st.jobs, jobId).Some?
    requires var job := Get(st.jobs, jobId).value;
      Get(st.folders, job.folderId).Some? && fs.isDir(Get(st.folders, job.folderId).value.path)
    ensures var job := Get(st.jobs, jobId).value;
      var folder := Get(st.folders, job.folderId).value;
      var files := CollectFiles(fs.walk(folder.path));
      var outcomes := Outcomes(folder, files, fs, svc);
      var done := Get(RunScanFolder(st, jobId, now, fs, svc).store.jobs, jobId).value;
      && done.status == Completed
      && ((forall i :: 0 <= i < |files| ==> !outcomes[i].Failed?) ==> done.errorMessage == job.errorMessage)
      && (forall i :: 0 <= i < |files| && outcomes[i].Failed? && (forall j :: i < j < |files| ==> !outcomes[j].Failed?) ==>
            done.errorMessage == Some(files[i] + ": " + outcomes[i].reason))
  {
    var job := Get(st.jobs, jobId).value;
    var folder := Get(st.folders, job.folderId).value;
    var files := CollectFiles(fs.walk(folder.path));
    var outcomes := Outcomes(folder, files, fs, svc);
    var running := job.(totalFiles := |files|, status := Running);
    var trace := JobTrace(job, files, outcomes, now);
    assert RunScanFolder(st, jobId, now, fs, svc) == ScanDirectory(st, jobId, job, folder, now, fs, svc);
    assert Get(RunScanFolder(st, jobId, now, fs, svc).store.jobs, jobId) == Some(trace[|trace| - 1]);
    assert trace[|trace| - 1] == Fold(running, files, outcomes, |files|).job.(status := Completed, finishedAt := Some(now));
    FoldLastError(running, files, outcomes, |files|);
  }

  /** Some collected file's attempt indexed batch `b`. */
  ghost predicate IndexedAmong(folder: FolderConfig, files: seq<string>, fs: FileSystem, svc: Services, b: Batch)
  {
    exists i :: 0 <= i < |files| && AttemptFile(folder, folder.path, files[i], fs, svc) == Indexed(b)
  }

  /** What a directory scan adds to the collection is exactly the batches of the
      collected files that were indexed. */
  lemma ScanDirectoryAdded(st: Store, jobId: string, job: ScanJob, folder: FolderConfig, now: Instant,
                           fs: FileSystem, svc: Services, b: Batch)
    requires ValidStore(st)
    ensures ScanDirectory(st, jobId, job, folder, now, fs, svc).added ==
      IndexedBatches(Outcomes(folder, CollectFiles(fs.walk(folder.path)), fs, svc))
    ensures b in ScanDirectory(st, jobId, job, folder, now, fs, svc).added <==>
      IndexedAmong(folder, CollectFiles(fs.walk(folder.path)), fs, svc, b)
  {
    var files := CollectFiles(fs.walk(folder.path));
    var running := job.(totalFiles := |files|, status := Running);
    var outcomes := Outcomes(folder, files, fs, svc);
    FoldAdded(running, files, outcomes, |files|);
    FoldAddedInOrder(running, files, outcomes, |files|);
    assert outcomes[..|files|] == outcomes;
    assert ScanDirectory(st, jobId, job, folder, now, fs, svc).added == Fold(running, files, outcomes, |files|).added;
  }

  /** What a completed run adds to the collection is exactly the batches of the
      collected files that were indexed, in the order the files were collected. */
  lemma CompletedAdded(st: Store, jobId: string, now: Instant, fs: FileSystem, svc: Services, b: Batch)
    requires ValidStore(st) && Get(st.jobs, jobId).Some?
    requires var job := Get(st.jobs, jobId).value;
      Get(st.folders, job.folderId).Some? && fs.isDir(Get(st.folders, job.folderId).value.path)
    ensures var job := Get(st.jobs, jobId).value;
      var folder := Get(st.folders, job.folderId).value;
      RunScanFolder(st, jobId, now, fs, svc).added ==
        IndexedBatches(Outcomes(folder, CollectFiles(fs.walk(folder.path)), fs, svc))
    ensures var job := Get(st.jobs, jobId).value;
      var folder := Get(st.folders, job.folderId).value;
      b in RunScanFolder(st, jobId, now, fs, svc).added <==>
        IndexedAmong(folder, CollectFiles(fs.walk(folder.path)), fs, svc, b)
  {
    var job := Get(st.jobs, jobId).value;
    ScanDirectoryAdded(st, jobId, job, Get(st.folders, job.folderId).value, now, fs, svc, b);
  }
}

=== FILE: schemas.dfy ===
/** The records of `app/schemas.py` (pydantic models), plus the shapes handed to and
    received from the vector store. */
module Schemas {
  import opened Common
  import opened Json

  /** A `datetime`. The model never looks inside one: it only stores and compares. */
  datatype Instant = Instant(ticks: int)

  /** The four values `ScanJob.status` takes. */
  datatype JobStatus = Pending | Running | Completed | Error

  /** The string the source stores in `ScanJob.status`. */
  function StatusName(s: JobStatus): string
  {
    match s
    case Pending => "pending"
    case Running => "running"
    case Completed => "completed"
    case Error => "error"
  }

  /** Reads a status string back: exactly the four names are recognised, each as the
      status it names. */
  function ParseStatus(name: string): (r: Option<JobStatus>)
    ensures forall s :: r == Some(s) <==> name == StatusName(s)
  {
    if name == "pending" then Some(Pending)
    else if name == "running" then Some(Running)
    else if name == "completed" then Some(Completed)
    else if name == "error" then Some(Error)
    else None
  }

  /** `FolderConfig`: a registered directory and the summary of its latest scan. */
  datatype FolderConfig = FolderConfig(
    id: string,
    name: string,
    path: string,
    createdAt: Instant,
    lastScanAt: Option<Instant>,
    lastScanStatus: Option<string>,
    lastScanJobId: Option<string>)

  /** `FolderConfig(id=..., name=..., path=..., created_at=...)`: the last-scan
      fields take their default `None`. */
  function NewFolderConfig(id: string, name: string, path: string, createdAt: Instant): (r: FolderConfig)
    ensures r.id == id && r.name == name && r.path == path && r.createdAt == createdAt
    ensures r.lastScanAt.None? && r.lastScanStatus.None? && r.lastScanJobId.None?
  {
    FolderConfig(id, name, path, createdAt, None, None, None)
  }

  /** `ScanJob`: one run of the folder scanner and its progress. */
  datatype ScanJob = ScanJob(
    id: string,
    folderId: string,
    status: JobStatus,
    totalFiles: int,
    processedFiles: int,
    errorMessage: Option<string>,
    startedAt: Instant,
    finishedAt: Option<Instant>)

  /** `ScanJob(id=..., folder_id=..., status=..., started_at=...)`: both counters
      default to 0 and the error message and finish time to `None`. */
  function NewScanJob(id: string, folderId: string, status: JobStatus, startedAt: Instant): (r: ScanJob)
    ensures r.id == id && r.folderId == folderId && r.status == status && r.startedAt == startedAt
    ensures r.totalFiles == 0 && r.processedFiles == 0
    ensures r.errorMessage.None? && r.finishedAt.None?
  {
    ScanJob(id, folderId, status, 0, 0, None, startedAt, None)
  }

  /** `ScanJobStatusResponse`: the same fields as `ScanJob`, as the polling routes
      return them. */
  datatype ScanJobStatusResponse = ScanJobStatusResponse(
    id: string,
    folderId: string,
    status: JobStatus,
    totalFiles: int,
    processedFiles: int,
    errorMessage: Option<string>,
    startedAt: Instant,
    finishedAt: Option<Instant>)

  /** A job copied field by field into the status response the polling routes send. */
  function ToStatusResponse(j: ScanJob): ScanJobStatusResponse
  {
    ScanJobStatusResponse(j.id, j.folderId, j.status, j.totalFiles, j.processedFiles,
                          j.errorMessage, j.startedAt, j.finishedAt)
  }

  /** A status response copied field by field back into a job. */
  function FromStatusResponse(r: ScanJobStatusResponse): ScanJob
  {
    ScanJob(r.id, r.folderId, r.status, r.totalFiles, r.processedFiles,
            r.errorMessage, r.startedAt, r.finishedAt)
  }

  /** The two records carry the same information: converting a job to a response and
      back loses nothing, and neither does the other direction. */
  lemma StatusResponseLossless(j: ScanJob, r: ScanJobStatusResponse)
    ensures FromStatusResponse(ToStatusResponse(j)) == j
    ensures ToStatusResponse(FromStatusResponse(r)) == r
    ensures ToStatusResponse(j) == r <==> j == FromStatusResponse(r)
  {
  }

  /** A vector-store metadata dict, items in insertion order. */
  type Metadata = seq<(string, Json)>

  /** An embedding vector. Floating point is modelled by reals; no arithmetic is
      done on them. */
  type Vector = seq<real>

  /** The four parallel arrays of one `collection.add(...)` call. */
  datatype Batch = Batch(
    ids: seq<string>,
    documents: seq<string>,
    embeddings: seq<Vector>,
    metadatas: seq<Metadata>)

  datatype IngestRequest = IngestRequest(text: string, docId: Option<string>, title: Option<string>)

  datatype IngestResponse = IngestResponse(docId: string, chunks: int)

  /** `QueryRequest`; the source's default for `top_k` is 5. */
  datatype QueryRequest = QueryRequest(question: string, topK: int)

  datatype ContextChunk = ContextChunk(text: string, metadata: Option<Metadata>)

  datatype QueryResponse = QueryResponse(answer: string, contextChunks: seq<ContextChunk>)

  datatype FolderCreateRequest = FolderCreateRequest(name: string, path: string)

  datatype FolderListResponse = FolderListResponse(items: seq<FolderConfig>)

  datatype VectorItem = VectorItem(id: string, document: string, metadata: Option<Metadata>)

  datatype VectorListResponse = VectorListResponse(items: seq<VectorItem>, total: int, limit: int, offset: int)
}

=== FILE: text.dfy ===
/** The parts of Python's `str` and `posixpath` behaviour the application relies on:
    `strip`, `lower`, `in`, `startswith`/`endswith`, `split`, `join`, `str(int)`, and
    path joining, `basename` and `splitext`. */
module Text {
  import opened Common

  // ---------------------------------------------------------------------------
  // Whitespace and str.strip()
  // ---------------------------------------------------------------------------

  /** The characters Python's `str.isspace()` accepts, which are exactly the ones a
      bare `str.strip()` removes. */
  predicate IsSpace(c: char)
  {
    || ('\t' <= c <= '\r')
    || ('\U{1C}' <= c <= ' ')
    || c == '\U{85}' || c == '\U{A0}' || c == '\U{1680}'
    || ('\U{2000}' <= c <= '\U{200A}')
    || c == '\U{2028}' || c == '\U{2029}' || c == '\U{202F}' || c == '\U{205F}'
    || c == '\U{3000}'
  }

  predicate AllSpace(s: string)
  {
    forall i :: 0 <= i < |s| ==> IsSpace(s[i])
  }

  /** `s.lstrip()`: drops the leading whitespace and nothing else. */
  function TrimStart(s: string): (r: string)
    ensures |r| <= |s| && r == s[|s| - |r|..]
    ensures AllSpace(s[..|s| - |r|])
    ensures r == [] || !IsSpace(r[0])
    decreases |s|
  {
    if s != [] && IsSpace(s[0]) then
      var r := TrimStart(s[1..]);
      assert s[..|s| - |r|] == [s[0]] + s[1..][..|s| - 1 - |r|];
      r
    else
      s
  }

  /** `s.rstrip()`: drops the trailing whitespace and nothing else. */
  function TrimEnd(s: string): (r: string)
    ensures |r| <= |s| && r == s[..|r|]
    ensures AllSpace(s[|r|..])
    ensures r == [] || !IsSpace(r[|r| - 1])
    decreases |s|
  {
    if s != [] && IsSpace(s[|s| - 1]) then
      var r := TrimEnd(s[..|s| - 1]);
      assert s[|r|..] == s[..|s| - 1][|r|..] + [s[|s| - 1]];
      r
    else
      s
  }

  /** A string is all whitespace exactly when both parts of any cut of it are. */
  lemma AllSpaceCut(s: string, a: nat)
    requires a <= |s|
    ensures AllSpace(s) <==> AllSpace(s[..a]) && AllSpace(s[a..])
  {
    if AllSpace(s[..a]) && AllSpace(s[a..]) {
      forall i | 0 <= i < |s|
        ensures IsSpace(s[i])
      {
        if i < a {
          assert s[i] == s[..a][i];
        } else {
          assert s[i] == s[a..][i - a];
        }
      }
    }
  }

  /** `s.strip()`: the middle of `s` between a whitespace prefix and a whitespace
      suffix, empty exactly when `s` is all whitespace. */
  function Strip(s: string): (r: string)
    ensures r == [] <==> AllSpace(s)
    ensures r != [] ==> !IsSpace(r[0]) && !IsSpace(r[|r| - 1])
    ensures |r| <= |s|
  {
    var t := TrimStart(s);
    var r := TrimEnd(t);
    var a := |s| - |t|;
    AllSpaceCut(s, a);
    AllSpaceCut(t, |r|);
    assert t[|r|..] == s[a + |r|..];
    r
  }

  /** `s.strip()` keeps the middle of `s` unchanged and removes only whitespace on
      either side of it. */
  lemma StripKeepsMiddle(s: string)
    ensures var a := |s| - |TrimStart(s)|; var r := Strip(s);
      && a + |r| <= |s|
      && r == s[a..a + |r|]
      && AllSpace(s[..a])
      && AllSpace(s[a + |r|..])
  {
    var t := TrimStart(s);
    var r := TrimEnd(t);
    var a := |s| - |t|;
    assert t[|r|..] == s[a + |r|..];
  }

  /** Stripping twice changes nothing more than stripping once. */
  lemma StripIdempotent(s: string)
    ensures Strip(Strip(s)) == Strip(s)
  {
    var r := Strip(s);
    assert TrimStart(r) == r;
    assert TrimEnd(r) == r;
  }

  // ---------------------------------------------------------------------------
  // Case folding and substring tests
  // ---------------------------------------------------------------------------

  /** `str.lower()` on one character, for the ASCII letters. */
  function LowerChar(c: char): char
  {
    if 'A' <= c <= 'Z' then (c as int + 32) as char else c
  }

  function Lower(s: string): (r: string)
    ensures |r| == |s|
    ensures forall i :: 0 <= i < |s| ==> r[i] == LowerChar(s[i])
  {
    seq(|s|, i requires 0 <= i < |s| => LowerChar(s[i]))
  }

  /** Lowering commutes with taking a suffix. */
  lemma LowerSuffix(s: string, a: nat)
    requires a <= |s|
    ensures Lower(s)[a..] == Lower(s[a..])
  {
  }

  /** `s.startswith(prefix)` */
  predicate StartsWith(s: string, prefix: string)
  {
    |prefix| <= |s| && s[..|prefix|] == prefix
  }

  /** `s.endswith(suffix)` */
  predicate EndsWith(s: string, suffix: string)
  {
    |suffix| <= |s| && s[|s| - |suffix|..] == suffix
  }

  /** `needle in s`, computed the way a left-to-right scan finds it. */
  predicate Contains(s: string, needle: string)
    decreases |s|
  {
    StartsWith(s, needle) || (s != [] && Contains(s[1..], needle))
  }

  /** Reference meaning of `needle in s`: some window of `s` equals `needle`. */
  ghost predicate OccursAt(s: string, needle: string, i: int)
  {
    0 <= i && i + |needle| <= |s| && s[i..i + |needle|] == needle
  }

  /** The scan finds `needle` exactly when it occurs somewhere in `s`. */
  lemma {:induction false} ContainsIffOccurs(s: string, needle: string)
    ensures Contains(s, needle) <==> exists i :: OccursAt(s, needle, i)
    decreases |s|
  {
    if StartsWith(s, needle) {
      assert OccursAt(s, needle, 0);
    } else if s == [] {
    } else {
      ContainsIffOccurs(s[1..], needle);
      if exists i :: OccursAt(s[1..], needle, i) {
        var i :| OccursAt(s[1..], needle, i);
        assert s[1..][i..i + |needle|] == s[i + 1..i + 1 + |needle|];
        assert OccursAt(s, needle, i + 1);
      }
      if exists i :: OccursAt(s, needle, i) {
        var i :| OccursAt(s, needle, i);
        assert i != 0;
        assert s[1..][i - 1..i - 1 + |needle|] == s[i..i + |needle|];
        assert OccursAt(s[1..], needle, i - 1);
      }
    }
  }

  // ---------------------------------------------------------------------------
  // str.split(sep) and sep.join(parts)
  // ---------------------------------------------------------------------------

  /** `sep.join(parts)` */
  function Join(parts: seq<string>, sep: string): string
    decreases |parts|
  {
    if |parts| == 0 then []
    else if |parts| == 1 then parts[0]
    else parts[0] + sep + Join(parts[1..], sep)
  }

  /** Number of occurrences of `c` in `s`. */
  function Count(s: string, c: char): nat
    decreases |s|
  {
    if s == [] then 0 else (if s[0] == c then 1 else 0) + Count(s[1..], c)
  }

  /** `s.split(sep)` for a one-character separator: one piece more than there are
      separators, no piece holds the separator, and joining the pieces with the
      separator gives `s` back. */
  function Split(s: string, sep: char): (r: seq<string>)
    ensures |r| == Count(s, sep) + 1
    ensures forall i :: 0 <= i < |r| ==> sep !in r[i]
    ensures Join(r, [sep]) == s
    decreases |s|
  {
    if s == [] then [[]]
    else
      var rest := Split(s[1..], sep);
      if s[0] == sep then
        var r := [[]] + rest;
        assert r[1..] == rest;
        r
      else
        var r := [[s[0]] + rest[0]] + rest[1..];
        assert |rest| > 1 ==> rest == [rest[0]] + rest[1..];
        assert |rest| > 1 ==> r[1..] == rest[1..];
        r
  }

  /** `s.replace(a, b)` for single characters. */
  function ReplaceChar(s: string, a: char, b: char): (r: string)
    ensures |r| == |s|
    ensures forall i :: 0 <= i < |s| ==> r[i] == (if s[i] == a then b else s[i])
  {
    seq(|s|, i requires 0 <= i < |s| => if s[i] == a then b else s[i])
  }

  // ---------------------------------------------------------------------------
  // str(n) for integers
  // ---------------------------------------------------------------------------

  predicate IsDigit(c: char)
  {
    '0' <= c <= '9'
  }

  predicate AllDigits(s: string)
  {
    forall i :: 0 <= i < |s| ==> IsDigit(s[i])
  }

  function DigitChar(d: nat): (c: char)
    requires d < 10
    ensures IsDigit(c)
  {
    (d + '0' as int) as char
  }

  function DigitValue(c: char): nat
    requires IsDigit(c)
  {
    c as int - '0' as int
  }

  /** `str(n)` for a non-negative integer: its decimal digits. */
  function NatToString(n: nat): (r: string)
    ensures r != [] && AllDigits(r)
    decreases n
  {
    if n < 10 then [DigitChar(n)] else NatToString(n / 10) + [DigitChar(n % 10)]
  }

  /** `str(i)` for any integer. */
  function IntToString(i: int): string
  {
    if i < 0 then "-" + NatToString(-i) else NatToString(i)
  }

  /** `int(s)` for a string of decimal digits: the inverse of NatToString. */
  function ParseNat(s: string): nat
    requires AllDigits(s)
    decreases |s|
  {
    if s == [] then 0 else 10 * ParseNat(s[..|s| - 1]) + DigitValue(s[|s| - 1])
  }

  lemma {:induction false} ParseNatToString(n: nat)
    ensures ParseNat(NatToString(n)) == n
    decreases n
  {
    if n >= 10 {
      var s := NatToString(n);
      assert s[..|s| - 1] == NatToString(n / 10);
      ParseNatToString(n / 10);
    }
  }

  /** Different numbers print differently. */
  lemma NatToStringInjective(a: nat, b: nat)
    requires NatToString(a) == NatToString(b)
    ensures a == b
  {
    ParseNatToString(a);
    ParseNatToString(b);
  }

  /** An identifier made of a prefix, a non-digit separator and `str(n)` determines
      both its prefix and `n`: the digits after the last separator are `str(n)`. */
  lemma SuffixedNumberInjective(p1: string, n1: nat, p2: string, n2: nat, sep: char)
    requires !IsDigit(sep)
    requires p1 + [sep] + NatToString(n1) == p2 + [sep] + NatToString(n2)
    ensures p1 == p2 && n1 == n2
  {
    var d1, d2 := NatToString(n1), NatToString(n2);
    var x := p1 + [sep] + d1;
    assert x == p2 + [sep] + d2;
    assert x[|p1|] == sep && x[|p2|] == sep;
    assert |p1| == |p2|;
    assert d1 == x[|p1| + 1..] == d2;
    NatToStringInjective(n1, n2);
    assert p1 == x[..|p1|] == p2;
  }

  // ---------------------------------------------------------------------------
  // posixpath
  // ---------------------------------------------------------------------------

  /** `s.rfind(c)`: the index of the last `c`, or -1. */
  function LastIndexOf(s: string, c: char): (r: int)
    ensures -1 <= r < |s|
    ensures r >= 0 ==> s[r] == c
    ensures forall i :: r < i < |s| ==> s[i] != c
    decreases |s|
  {
    if s == [] then -1
    else if s[|s| - 1] == c then |s| - 1
    else LastIndexOf(s[..|s| - 1], c)
  }

  /** The last occurrence is the one with no occurrence after it. */
  lemma LastIndexOfAt(s: string, c: char, k: nat)
    requires k < |s| && s[k] == c
    requires forall i :: k < i < |s| ==> s[i] != c
    ensures LastIndexOf(s, c) == k
  {
  }

  /** A character that does not occur has no last occurrence. */
  lemma LastIndexOfAbsent(s: string, c: char)
    requires c !in s
    ensures LastIndexOf(s, c) == -1
  {
  }

  /** `os.path.join(a, b)` on POSIX. */
  function JoinPath(a: string, b: string): (r: string)
    ensures EndsWith(r, b)
  {
    if StartsWith(b, "/") then b
    else if a == [] || EndsWith(a, "/") then a + b
    else a + "/" + b
  }

  /** `os.path.basename(p)`: the text after the last `/`. */
  function Basename(p: string): (r: string)
    ensures '/' !in r && EndsWith(p, r)
    ensures |r| < |p| ==> p[|p| - |r| - 1] == '/'
  {
    var k := LastIndexOf(p, '/');
    var r := p[k + 1..];
    forall i | 0 <= i < |r|
      ensures r[i] != '/'
    {
      assert r[i] == p[k + 1 + i];
    }
    r
  }

  /** The base name of a joined path is the name that was joined, whenever that
      name holds no `/` (as the names `os.walk` lists never do). */
  lemma BasenameOfJoin(root: string, name: string)
    requires '/' !in name
    ensures Basename(JoinPath(root, name)) == name
  {
    var p := JoinPath(root, name);
    var k := LastIndexOf(p, '/');
    var start := |p| - |name|;
    assert p[start..] == name;
    forall i | start <= i < |p|
      ensures p[i] != '/'
    {
      assert p[i] == name[i - start];
    }
    assert k < start;
    assert start > 0 ==> p[start - 1] == '/';
    assert k == start - 1;
  }

  /** `os.path.splitext(p)[1]`: the text from the last `.` of the final path
      component, unless that component holds only dots before it (so the hidden
      file `.md` has no extension). */
  function Extension(p: string): (r: string)
    ensures r == [] || (r[0] == '.' && EndsWith(p, r) && '.' !in r[1..] && '/' !in r)
  {
    var sepIndex := LastIndexOf(p, '/');
    var dotIndex := LastIndexOf(p, '.');
    if dotIndex > sepIndex && exists k :: sepIndex + 1 <= k < dotIndex && p[k] != '.' then
      var r := p[dotIndex..];
      assert forall i :: 1 <= i < |r| ==> r[i] == p[dotIndex + i];
      r
    else
      []
  }
}
